=== FILE: README.md ===
# TimeFlow schedule synthesis, modelled in Dafny

TimeFlow turns a student's class timetable into one weekly agenda. It combines the
timetable with personal constraints: sleep, meals, the commute to university,
study habits and hobbies. This project models three pieces of it and proves their
behaviour:

- **The schedule generator** (`src/utils/scheduleGenerator.js`). This is the
  seven-step pipeline that loads the classes and adds commutes, meals and sleep.
  It then places study sessions and activities by first-fit search, sorts every
  day by start time and computes the week's statistics.
- **The class-list helpers** (`src/utils/scheduleParser.js`). These are
  validation, `HH:MM` normalisation, hours per day, the days a timetable uses, and
  grouping by class type.
- **The figures on the life-essentials form** (`src/pages/Onboarding/LifeEssentials.jsx`).
  These are the sleep duration from bedtime to wake time, its quality verdict,
  and the round-trip commute.

Times in the generator are minute-of-day integers `0..1439` (`Clock.Minute`). The
`"HH:MM"` text the application stores is linked to them by the `Clock` round
trips. The week is a map from the seven `Day`s to sequences of `Block`s. Every
step is a pure function.

| file | module | what it holds |
|---|---|---|
| clock.dfy | Clock | `timeToMinutes`, `addMinutes`, `subtractMinutes`, on minutes and on text |
| seqs.dfy | Seqs | count, filter, `[...new Set()]`, stable insertion sort |
| jsobject.dfy | JsObject | the names a plain object inherits |
| week.dfy | Week | days, block kinds, the week map, `isSlotAvailable`, pushing placed blocks |
| preferences.dfy | Preferences | `getPreferredHours`, `getActivityFrequency`, `selectDaysForActivity` |
| inputs.dfy | Inputs | the records the generator is called with |
| search.dfy | SlotSearch | first-fit search over on-the-hour candidates |
| study.dfy | StudyPlan | `findBestStudySlot`, `generateStudySessions` |
| activities.dfy | ActivityPlan | `findBestActivitySlot`, `scheduleActivities` |
| stats.dfy | Stats | `calculateStats` |
| generator.dfy | Generator | `generateSchedule` and the properties of the week it returns |
| parser.dfy | ScheduleParser | the helpers of `scheduleParser.js` |
| essentials.dfy | LifeEssentials | sleep duration, sleep quality, round-trip commute |

The model keeps these properties of the code:

- **The searches never write into the week they search.** Every study session
  therefore lands on the same slot. Two activities searched alike on the same day
  get the same slot and overlap (`ActivityPlan.ActivitiesMayOverlap`).
- **The commute follows insertion order.** It is computed from the first and last
  class in insertion order, not the earliest and latest class.
- **The activity day picker.** For a frequency `n` from 1 to 7, the picker yields
  exactly `n` distinct days (`Preferences.SelectDays`).
- **Overlaps that nothing prevents.** Nothing keeps a commute clear of the meals
  (`Generator.CommuteMayOverlapBreakfast`). Classes are never checked against each
  other.
- **What is kept apart, by the code's own overlap test.** The test compares
  minutes of the day and ignores midnight. Under that test, no study session
  overlaps a class, commute, meal or sleep block of its day
  (`Generator.StudyAvoidsFixed`), and no activity overlaps a non-activity block
  (`Generator.ActivitiesAvoidSettled`). In clock time both can still happen: a
  candidate that ends at 00:00 is never blocked (`Week.WrappedCandidateNeverBlocked`).
  For example, a 120-minute "Night" session at 22:00 is placed even when the
  sleep block runs from 21:00 to 23:59.
- **Lookups in object literals.** `getActivityFrequency` and `groupByType` index a
  plain object by text. A name every object inherits, such as `constructor` or
  `toString` (`JsObject.InheritedNames`), is found there. An activity with such a
  frequency label is tried on no day. `groupByType` throws a TypeError on a class
  of such a type.

## Model

| member | source | states |
|---|---|---|
| Clock.TimeToMinutes | src/utils/scheduleGenerator.js:302-305 | a valid `HH:MM` denotes a minute of the day whose hour and minute are the text's two fields |
| Clock.FormatThenParse | src/utils/scheduleGenerator.js:302-313 | reading back the zero-padded text of a minute gives that minute |
| Clock.ParseThenFormat | src/utils/scheduleGenerator.js:302-313 | formatting the value of a valid `HH:MM` gives the same text |
| Clock.AddMinutes | src/utils/scheduleGenerator.js:308-313 | the hour `floor(total/60) % 24` and minute `total % 60` that `addMinutes` builds denote `(t + d) mod 1440` |
| Clock.SubtractMinutes | src/utils/scheduleGenerator.js:316-322 | after adding one day back to a negative difference, the result denotes `(t - d) mod 1440` |
| Clock.AddMinutesText | src/utils/scheduleGenerator.js:308-313 | on text: the result is a valid zero-padded time, hour 00-23, whose value is the input's plus `d` modulo a day |
| Clock.SubtractMinutesText | src/utils/scheduleGenerator.js:316-322 | on text: the result is a valid zero-padded time whose value is the input's minus `d` modulo a day |
| Clock.AddThenSubtract | src/utils/scheduleGenerator.js:308-322 | subtracting `d` after adding `d` returns to the same minute, for `0 <= d <= 1440` |
| Clock.SubtractThenAdd | src/utils/scheduleGenerator.js:308-322 | adding `d` after subtracting `d` returns to the same minute |
| Week.IsSlotAvailable | src/utils/scheduleGenerator.js:288-299 | a slot is available exactly when no block already on that day, of any kind, overlaps `[start, end)` |
| Week.AnyOverlap | src/utils/scheduleGenerator.js:292-298 | `some` is true exactly when one of the day's blocks overlaps |
| Week.WrappedCandidateNeverBlocked | src/utils/scheduleGenerator.js:288-299 | the test is not midnight-aware: a candidate whose end has wrapped to 00:00 is available whatever the day holds |
| Week.Push | src/utils/scheduleGenerator.js:111-113 | pushing placed blocks appends to each day exactly the blocks placed on it, in order |
| Week.BlocksOnTotal | src/utils/scheduleGenerator.js:111-113 | the per-day shares of the placed blocks add up to all of them |
| Preferences.SlotHours | src/utils/scheduleGenerator.js:328-334 | one preference string pushes exactly the hours of the buckets whose label it contains |
| Preferences.RawHours | src/utils/scheduleGenerator.js:325-334 | the hours pushed are exactly the hours of the selected buckets |
| Preferences.PreferredHours | src/utils/scheduleGenerator.js:325-337 | the result is strictly ascending, with no duplicates, and holds exactly the hours of the selected buckets |
| Preferences.PreferredHoursInDay | src/utils/scheduleGenerator.js:329-333 | every preferred hour lies between 6 and 22 |
| Preferences.NoSelectionNoHours | src/utils/scheduleGenerator.js:325-337 | with no bucket selected there are no hours |
| Preferences.ActivityFrequency | src/utils/scheduleGenerator.js:227-236 | a known label gets its table value; a name every object inherits gets no number, because the lookup finds the inherited member and `|| 3` keeps it; any other string gets 3 |
| Preferences.SelectDays | src/utils/scheduleGenerator.js:239-257 | `Weekends` gives Saturday and Sunday; otherwise, for `n` in 1..7, exactly `n` distinct days at indices `i * floor(7/n)` |
| Preferences.StrideLength | src/utils/scheduleGenerator.js:250-254 | for `n` up to 7 the loop runs until `n` days are picked |
| Preferences.StrideDistinct | src/utils/scheduleGenerator.js:250-254 | the days picked by the stride are distinct |
| SlotSearch.Candidate | src/utils/scheduleGenerator.js:180-181 | a candidate starts on the hour and ends at the start plus the duration, wrapped to the day |
| SlotSearch.FirstFree | src/utils/scheduleGenerator.js:178-196 | the position found is free and every earlier candidate is not |
| SlotSearch.SearchHours | src/utils/scheduleGenerator.js:179-193 | the loop over hours returns the first free candidate of the day |
| SlotSearch.SearchDays | src/utils/scheduleGenerator.js:178-196 | the nested loops return the first free candidate in day-major order |
| SlotSearch.FirstOfConcat | src/utils/scheduleGenerator.js:263-284 | searching two candidate lists one after the other is searching their concatenation |
| SlotSearch.DayHourCandidateShape | src/utils/scheduleGenerator.js:178-181 | every day-major candidate lies on one of the days, on the hour, at one of the hours |
| StudyPlan.SessionsNeeded | src/utils/scheduleGenerator.js:154-156 | the fewest sessions of the (default 90-minute) length that cover the (default 5) weekly hours |
| StudyPlan.FindBestStudySlot | src/utils/scheduleGenerator.js:174-197 | a slot found is free, on a weekday, on a preferred hour, and lasts the session length |
| StudyPlan.StudySlotFirstFit | src/utils/scheduleGenerator.js:174-197 | the slot is the first free candidate over Monday to Friday and the preferred hours, and none only when no candidate is free |
| StudyPlan.GenerateStudySessions | src/utils/scheduleGenerator.js:149-171 | with no free slot there are no sessions; otherwise every distinct course, in order of first appearance, gets `SessionsNeeded` sessions in a row (session `i` is for course `i / SessionsNeeded`), all on the one slot found |
| StudyPlan.CourseSessionsShape | src/utils/scheduleGenerator.js:153-168 | the per-course loops yield `courses * n` sessions on the one answer, or none |
| StudyPlan.CourseSessionsOrder | src/utils/scheduleGenerator.js:153-168 | course by course: session `i` belongs to course `i / n` |
| ActivityPlan.FindBestActivitySlot | src/utils/scheduleGenerator.js:260-285 | a slot found is free on that day, on the hour, lasts the duration, and is a preferred hour unless the activity is flexible |
| ActivityPlan.ActivitySlotFirstFit | src/utils/scheduleGenerator.js:260-285 | the slot is the first free candidate, preferred hours first and then 8..21 only when flexible |
| ActivityPlan.SearchActivityMeaning | src/utils/scheduleGenerator.js:263-284 | the two loops are first-fit over the candidates in that order |
| ActivityPlan.HourRange | src/utils/scheduleGenerator.js:274 | the fallback loop tries the hours 8 to 21 in order |
| ActivityPlan.ActivityOnDay | src/utils/scheduleGenerator.js:207-219 | a day gets a block exactly when one of its candidates is free, and then the block at the slot the search found |
| ActivityPlan.ActivityOnDays | src/utils/scheduleGenerator.js:207-220 | one block for each day whose search succeeds; the placements are exactly the blocks found on the chosen days, each on its day and free in the week; over distinct days no day gets two |
| ActivityPlan.ActivityDays | src/utils/scheduleGenerator.js:204-257 | the days are distinct; a label naming an inherited object member gives none, `Weekends` gives Saturday and Sunday, any other label its frequency's number of days |
| ActivityPlan.ActivityOncePerDay | src/utils/scheduleGenerator.js:204-220 | an activity is placed at most once on any day |
| ActivityPlan.OnDaysConcat | src/utils/scheduleGenerator.js:207-220 | the days are tried in order: the blocks found on `xs + ys` are those found on `xs` followed by those found on `ys` |
| ActivityPlan.ScheduleOneActivity | src/utils/scheduleGenerator.js:200-224 | a single activity gets exactly the list its own day loop finds |
| ActivityPlan.ScheduleActivities | src/utils/scheduleGenerator.js:200-224 | one block for each activity and each of its days whose search succeeds; a block is returned exactly when it is the slot found for one of the activities on one of its days; every one is an activity block available in the week searched |
| ActivityPlan.ActivitiesIndependent | src/utils/scheduleGenerator.js:200-224 | placements do not see each other: two lists of activities scheduled together give the two results in sequence |
| ActivityPlan.ActivitiesMayOverlap | src/utils/scheduleGenerator.js:200-224 | two activities searched alike on a shared day both get the same slot and both blocks are returned, overlapping |
| Stats.DayFreeMinutes | src/utils/scheduleGenerator.js:357-366 | a day's free time is either none or more than 30 minutes |
| Stats.AsleepBlocksIgnored | src/utils/scheduleGenerator.js:357-359 | sleep blocks and blocks starting before 06:00 never change a day's free time |
| Stats.RoundHours | src/utils/scheduleGenerator.js:373 | the free time is the nearest whole hour, halves rounded up |
| Stats.CalculateStats | src/utils/scheduleGenerator.js:345-375 | the three totals are the per-kind block counts over the seven days, and the free time rounds the week's counted gaps |
| Stats.NoGapWithoutNeighbours | src/utils/scheduleGenerator.js:357-366 | a day with at most one awake block has no free time |
| Stats.GapSumOverThirty | src/utils/scheduleGenerator.js:361-365 | a day's free time is zero or more than 30 minutes |
| Stats.PushWeekCount | src/utils/scheduleGenerator.js:111-119 | pushing placed blocks adds exactly their count to the week's |
| Generator.ClassPlacements | src/utils/scheduleGenerator.js:17-29 | one block per class, on its day, carrying its subject, type, room, professor and frequency |
| Generator.ClassWeekDay | src/utils/scheduleGenerator.js:17-29 | after step 1 each day holds the blocks of its classes, in input order |
| Generator.CommuteTiming | src/utils/scheduleGenerator.js:37-56 | the inbound trip ends at the first class and starts `commute + 15` minutes earlier; the outbound trip starts at the last class and lasts `commute` |
| Generator.CommutesOfDay | src/utils/scheduleGenerator.js:32-58 | a day gets two commutes exactly when it has a class and the commute is positive, to the class given first and from the class given last |
| Generator.CommuteMayOverlapBreakfast | src/utils/scheduleGenerator.js:37-69 | a commute placed before an 08:00 class overlaps a 07:30 breakfast |
| Generator.CommuteBlocks | src/utils/scheduleGenerator.js:32-58 | two commutes exactly when the day has a class and the commute is positive: one arriving as the first class starts and leaving `commute + 15` earlier, one leaving as the last class ends and taking `commute` |
| Generator.AddCommutes | src/utils/scheduleGenerator.js:32-58 | step 2 keeps each day's blocks in order and appends two commute blocks exactly when the day has a class and the commute is positive |
| Generator.MealBlocks | src/utils/scheduleGenerator.js:60-88 | breakfast, lunch and dinner, each from its time to its time plus its duration modulo a day |
| Generator.SleepBlocks | src/utils/scheduleGenerator.js:90-107 | the sleep blocks cover exactly the minutes from bedtime up to 23:59 and from midnight up to the wake time, so 23:59 itself is in neither |
| Generator.SortDays | src/utils/scheduleGenerator.js:122-126 | every day is sorted by start time and holds the same blocks |
| Generator.GenerateSchedule | src/utils/scheduleGenerator.js:2-135 | every returned day is sorted by start and is a permutation of what steps 1 to 6 produced; the class total is the week's class count |
| Generator.FullDay | src/utils/scheduleGenerator.js:17-119 | an unsorted day is its classes, commutes, meals, sleep, then the sessions and activities placed on it |
| Generator.ScheduleDay | src/utils/scheduleGenerator.js:17-126 | a generated day is its six typed parts, sorted by start time |
| Generator.ClassesKept | src/utils/scheduleGenerator.js:17-29 | the class blocks of a generated day are exactly those of the classes given for it, one per class |
| Generator.MealsEveryDay | src/utils/scheduleGenerator.js:61-88 | every generated day has exactly the three meals of the essentials |
| Generator.SleepEveryDay | src/utils/scheduleGenerator.js:91-107 | every generated day has exactly the sleep blocks bedtime to 23:59 and 00:00 to the wake time |
| Generator.CommuteCount | src/utils/scheduleGenerator.js:32-58 | a generated day has two commute blocks when it has a class and the commute is positive, none otherwise |
| Generator.CommuteRule | src/utils/scheduleGenerator.js:32-58 | the commute blocks of a generated day are the trips to the class given first and from the class given last |
| Generator.StudySharedSlot | src/utils/scheduleGenerator.js:109-113 | every study block of the week sits in the one slot the search found, on that slot's day |
| Generator.StudyAvoidsFixed | src/utils/scheduleGenerator.js:109-113 | by the code's own overlap test, which ignores midnight, no study block overlaps a class, commute, meal or sleep block of its day; a session ending at 00:00 can still lie inside sleep (`Week.WrappedCandidateNeverBlocked`) |
| Generator.ActivitiesAvoidSettled | src/utils/scheduleGenerator.js:115-119 | by the code's own overlap test, which ignores midnight, no activity overlaps any block of its day that is not an activity; one ending at 00:00 is never blocked (`Week.WrappedCandidateNeverBlocked`) |
| Generator.SessionTotal | src/utils/scheduleGenerator.js:149-171 | the number of sessions is the number of distinct courses times `SessionsNeeded` when a slot is free, else zero |
| Generator.ClassTotal | src/utils/scheduleGenerator.js:346-352 | the week holds one class block per class given |
| Generator.StudyTotal | src/utils/scheduleGenerator.js:346-353 | the week holds one study block per session generated |
| Generator.ActivityTotal | src/utils/scheduleGenerator.js:346-354 | the week holds one activity block per placement found |
| Generator.StatsMatchInputs | src/utils/scheduleGenerator.js:129-134 | the statistics count every class, `courses * SessionsNeeded` sessions when a slot is free, and every activity placement found |
| ScheduleParser.ValidateSchedule | src/utils/scheduleParser.js:2-15 | an absent or empty class list gives "No classes found" first; otherwise the result is invalid exactly when a class lacks a required field; valid exactly when neither holds |
| ScheduleParser.FormatTime | src/utils/scheduleParser.js:18-22 | only the empty time gives the empty string; any other becomes the hour piece padded to two characters, a colon, and the input's minute piece, or "00" when that is missing or empty |
| ScheduleParser.FormatTimeIdempotent | src/utils/scheduleParser.js:18-22 | formatting twice is formatting once |
| ScheduleParser.FormatTimeKeepsClockText | src/utils/scheduleParser.js:18-22 | a well-formed `HH:MM` is returned unchanged |
| ScheduleParser.FormatTimePadsHour | src/utils/scheduleParser.js:20-21 | `9:30` becomes `09:30` |
| ScheduleParser.FormatTimeAddsMinutes | src/utils/scheduleParser.js:20-21 | `14` becomes `14:00` |
| ScheduleParser.FormatTimeEmptyMinutes | src/utils/scheduleParser.js:20-21 | `7:` becomes `07:00` |
| ScheduleParser.ParseLeadingInt | src/utils/scheduleParser.js:30-31 | `parseInt` is NaN exactly when no digit follows the sign and any `0x` prefix; otherwise the value is the hexadecimal run after `0x`/`0X` or the decimal run, negated after a leading "-" |
| ScheduleParser.ParseLeadingIntSign | src/utils/scheduleParser.js:30-31 | "+" keeps and "-" negates the reading of a sign-free text; a second sign gives NaN |
| ScheduleParser.ParseLeadingIntExamples | src/utils/scheduleParser.js:30-31 | `0x1A` reads as 26, `0x` as NaN, `-7` as -7 and `08` as 8 |
| ScheduleParser.HourOfClockText | src/utils/scheduleParser.js:30-31 | on a well-formed time the hour parsed is the hour field |
| ScheduleParser.CalculateDayHours | src/utils/scheduleParser.js:25-36 | the total is NaN exactly when some class of that day has a start or end hour that does not parse |
| ScheduleParser.DayHoursConcat | src/utils/scheduleParser.js:25-36 | the hours of a split class list add up, NaN absorbing |
| ScheduleParser.OtherDaysIgnored | src/utils/scheduleParser.js:26 | classes of other days change nothing |
| ScheduleParser.NoClassesOfDay | src/utils/scheduleParser.js:25-36 | with no class on the day, or no class at all, the total is 0 |
| ScheduleParser.DayHoursOfClockTexts | src/utils/scheduleParser.js:25-36 | with well-formed times the total is the sum over that day's classes of end hour minus start hour, minutes ignored |
| ScheduleParser.DayOrderIndex | src/utils/scheduleParser.js:41-42 | a weekday's index in Monday..Friday, and -1 exactly for any other text |
| ScheduleParser.GetScheduleDays | src/utils/scheduleParser.js:39-43 | for days given as text: each day used appears once, nothing else appears, in non-decreasing week order |
| ScheduleParser.UnknownDaysFirst | src/utils/scheduleParser.js:41-42 | day texts outside Monday to Friday, the empty text among them, come before every weekday |
| ScheduleParser.UnknownDaysKeepOrder | src/utils/scheduleParser.js:40-42 | those other days keep the order in which they first appear |
| ScheduleParser.KnownDaysInWeekOrder | src/utils/scheduleParser.js:39-43 | when all days are weekdays the result is the week order restricted to the days used |
| ScheduleParser.GroupByType | src/utils/scheduleParser.js:46-55 | a TypeError exactly when some class's key names an inherited object member; otherwise the groups of the reduce |
| ScheduleParser.GroupByTypeMeaning | src/utils/scheduleParser.js:46-55 | it throws exactly on an inherited key name; otherwise the keys are the types (empty becomes `Other`), each once, in order of first appearance, each group is exactly that type's classes in input order, and the sizes add up to the number of classes |
| ScheduleParser.GroupReduceMeaning | src/utils/scheduleParser.js:47-54 | the reduce keeps each key once in order of first appearance, with exactly that key's classes in input order |
| ScheduleParser.KeyOrderMembers | src/utils/scheduleParser.js:48 | the keys are exactly the keys of the classes, each once |
| ScheduleParser.GroupReduceSizes | src/utils/scheduleParser.js:47-54 | the group sizes of the reduce add up to the number of classes |
| LifeEssentials.CalculateSleepHours | src/pages/Onboarding/LifeEssentials.jsx:37-60 | the total is 1 to 1440 minutes and leads from bedtime to wake time on the clock; the hours and minutes split it with minutes below 60 |
| LifeEssentials.SleepTotalUnique | src/pages/Onboarding/LifeEssentials.jsx:47-55 | the total is the only span of 1 to 1440 minutes from bedtime to wake time |
| LifeEssentials.SameTimeIsFullDay | src/pages/Onboarding/LifeEssentials.jsx:51-53 | equal bedtime and wake time give 24 hours |
| LifeEssentials.GetSleepQuality | src/pages/Onboarding/LifeEssentials.jsx:64-69 | Optimal exactly for 7 to 9 whole hours, Good for 6, Too little below 6, Too much from 10 |
| LifeEssentials.QualityOfTotal | src/pages/Onboarding/LifeEssentials.jsx:64-69 | Optimal exactly for 7 up to 10 hours of sleep, Good for 6 up to 7, Too little below 6, Too much from 10 |
| LifeEssentials.DefaultNight | src/pages/Onboarding/LifeEssentials.jsx:17-20 | the form's default 23:00 to 07:00 is 8 hours, Optimal |
| LifeEssentials.RoundTripCommute | src/pages/Onboarding/LifeEssentials.jsx:321-325 | the round trip is twice the one-way time, split into whole hours and minutes below 60 |
| LifeEssentials.SliderRoundTrip | src/pages/Onboarding/LifeEssentials.jsx:305-325 | for a slider value the round trip is at most 4 hours and its minutes are a multiple of 10 |
| LifeEssentials.SliderCommuteGenerates | src/pages/Onboarding/LifeEssentials.jsx:305-313 | every commute the slider offers is one the generator model accepts |

## Left out

- The artificial delay before the first step of `generateSchedule` is left out, because it is timing only.
- Colours, emoji, icons and the composed titles are left out (`getClassColor`, the study title with its 30-character cut, the activity title). They are presentation only. Blocks keep the class fields, the course, and the activity name, icon and priority.
- Local storage, export, sharing, the upload and extraction service, and all React components are left out. They are I/O or UI.
- Malformed `HH:MM` text in the generator is left out. Times arrive as valid minute values, because `timeToMinutes` does no validation. The text layer is modelled only for valid times.
- Generator.WellFormed: the generator model requires a one-way commute of at most 1425 minutes. Beyond that, `subtractMinutes` would need more than one day added back. The form's slider offers 0 to 120.
- Meal and activity durations are non-negative integers. The form offers only fixed choices for them.
- LifeEssentials.CalculateSleepHours: requires valid `HH:MM` bedtime and wake time, because the time pickers produce only those. Other text, and `parseInt` on it, is not modelled.
- LifeEssentials.RoundTripCommute: takes a non-negative commute, because the slider's minimum is 0. JavaScript's truncating `%` on negative values is not modelled.
- LifeEssentials.GetSleepQuality: only the verdict is modelled, not its colour and emoji.
- ScheduleParser.ParseLeadingInt: leading white space, which `parseInt` skips, is not modelled. A text starting with it reads as NaN here.
- ScheduleParser.GroupByType, ScheduleParser.GroupByTypeMeaning: groups are kept in order of first appearance. JavaScript would put integer-like type names first in an object's key order, and that is not modelled.
- Inputs.ClassEntry: a class's day is one of the seven `Day` values. In the source, a day text that is not one of the seven keys (`""`, `"monday"`) makes `weekSchedule[classItem.day].push` throw a TypeError. That error path is not modelled.
- ScheduleParser.CalculateDayHours: a class of the day whose `startTime` or `endTime` is missing makes `cls.startTime.split` throw a TypeError. Fields are text here, so a missing one is the empty string, and the model gives NaN for it instead of the error.
- ScheduleParser.GetScheduleDays, ScheduleParser.UnknownDaysFirst: every class's day is text here. In the source, a class with no `day` contributes `undefined`. `Array.prototype.sort` moves `undefined` to the end without calling the comparator, and `new Set` keeps `undefined`, `null` and `""` apart. So for a Monday class and a class with no day the source gives `["Monday", undefined]`, while the model, reading the missing day as `""`, gives `["", "Monday"]`.
- ScheduleParser.PadStart2, ScheduleParser.FormatTime, ScheduleParser.ParseLeadingInt: two differences in JavaScript's values are not modelled.
  - Text here is a sequence of Unicode characters. JavaScript's `length` and `padStart` count UTF-16 code units, so an hour piece made of one character outside the Basic Multilingual Plane (an emoji) is already two long in the source and is not padded, while the model pads it.
  - `parseInt` returns a double, so a digit run above 2^53 is rounded in the source, while the model returns the exact integer.
- ScheduleParser.ValidateSchedule: a missing or falsy field of any JavaScript type is modelled as the empty string.
- The meal-duration choices and the slider's drawing are left out, because they are UI.

=== FILE: activities.dfy ===
/** Activities: the days each is tried on and the hour it gets on each
    (src/utils/scheduleGenerator.js, scheduleActivities and findBestActivitySlot). */
module ActivityPlan {
  import opened Seqs
  import opened Clock
  import opened Week
  import opened Inputs
  import opened Preferences
  import opened SlotSearch
  import opened JsObject

  /** The hours tried when an activity is flexible: 8 .. 21. */
  const FallbackHours: seq<int> := HourRange(8, 22)

  /** The whole hours `lo .. hi - 1`, ascending. */
  function HourRange(lo: int, hi: int): (r: seq<int>)
    ensures |r| == if lo < hi then hi - lo else 0
    ensures forall i :: 0 <= i < |r| ==> r[i] == lo + i
    decreases hi - lo
  {
    if lo < hi then [lo] + HourRange(lo + 1, hi) else []
  }

  lemma FallbackHoursInDay()
    ensures HoursInDay(FallbackHours)
  {
    assert |FallbackHours| == 14;
  }

  /** Every candidate an activity is tried at on a day: preferred hours first, then the
      fallback hours only when it is flexible. */
  function ActivityCandidates(a: Activity, day: Day): seq<Slot>
  {
    PreferredHoursInDay(a.preferredTimes);
    FallbackHoursInDay();
    HourCandidates(day, PreferredHours(a.preferredTimes), a.duration)
    + (if a.flexible then HourCandidates(day, FallbackHours, a.duration) else [])
  }

  /** The two loops of `findBestActivitySlot`. */
  function SearchActivity(a: Activity, day: Day, week: Week): Option<Slot>
  {
    PreferredHoursInDay(a.preferredTimes);
    FallbackHoursInDay();
    var preferred := SearchHours(day, PreferredHours(a.preferredTimes), a.duration, week);
    if preferred.Some? then preferred
    else if a.flexible then SearchHours(day, FallbackHours, a.duration, week)
    else None
  }

  lemma SearchActivityMeaning(a: Activity, day: Day, week: Week)
    ensures SearchActivity(a, day, week) == FirstOf(ActivityCandidates(a, day), week)
  {
    PreferredHoursInDay(a.preferredTimes);
    FallbackHoursInDay();
    var pref := HourCandidates(day, PreferredHours(a.preferredTimes), a.duration);
    var rest := if a.flexible then HourCandidates(day, FallbackHours, a.duration) else [];
    FirstOfConcat(pref, rest, week);
    if !a.flexible {
      assert FirstOf(rest, week) == None;
    }
  }

  lemma ActivityCandidateShape(a: Activity, day: Day, i: nat)
    requires i < |ActivityCandidates(a, day)|
    ensures var c := ActivityCandidates(a, day)[i];
      c.day == day && c.start % 60 == 0 && c.end == AddMinutes(c.start, a.duration)
      && (!a.flexible ==> c.start / 60 in PreferredHours(a.preferredTimes))
  {
    PreferredHoursInDay(a.preferredTimes);
    FallbackHoursInDay();
    var hours := PreferredHours(a.preferredTimes);
    var pref := HourCandidates(day, hours, a.duration);
    var cands := ActivityCandidates(a, day);
    if i < |pref| {
      assert cands[i] == Candidate(day, hours[i], a.duration);
    } else {
      assert cands[i] == Candidate(day, FallbackHours[i - |pref|], a.duration);
    }
  }

  /** `findBestActivitySlot`: an on-the-hour slot on `day` that is free in `week`, taken
      from the preferred hours unless the activity is flexible. */
  function FindBestActivitySlot(a: Activity, day: Day, week: Week): (r: Option<Slot>)
    ensures r.Some? ==> (r.value.day == day && Free(r.value, week) && r.value.start % 60 == 0
                       && r.value.end == AddMinutes(r.value.start, a.duration))
    ensures r.Some? && !a.flexible ==> r.value.start / 60 in PreferredHours(a.preferredTimes)
  {
    ActivitySearchShape(a, day, week);
    SearchActivity(a, day, week)
  }

  /** The activity search is first-fit: its answer is the first free candidate, in
      preferred-then-fallback order, and none only when no candidate is free. */
  lemma ActivitySlotFirstFit(a: Activity, day: Day, week: Week)
    ensures FindBestActivitySlot(a, day, week) == FirstOf(ActivityCandidates(a, day), week)
  {
    SearchActivityMeaning(a, day, week);
  }

  lemma ActivitySearchShape(a: Activity, day: Day, week: Week)
    ensures var r := SearchActivity(a, day, week);
      r.Some? ==> (r.value.day == day && Free(r.value, week) && r.value.start % 60 == 0
                   && r.value.end == AddMinutes(r.value.start, a.duration)
                   && (!a.flexible ==> r.value.start / 60 in PreferredHours(a.preferredTimes)))
  {
    SearchActivityMeaning(a, day, week);
    var cands := ActivityCandidates(a, day);
    var i := FirstFree(cands, week);
    if i < |cands| {
      ActivityCandidateShape(a, day, i);
    }
  }

  function ActivityBlock(s: Slot, a: Activity): Placed
  {
    Placed(s.day, Block(s.start, s.end, ActivityItem(a.name, a.icon, a.priority)))
  }

  /** `x` is the block pushed for activity `a` on day `d`: the search found a slot there
      and `x` occupies it. */
  predicate PlacementOf(x: Placed, a: Activity, d: Day, week: Week)
  {
    var found := FindBestActivitySlot(a, d, week);
    found.Some? && x == ActivityBlock(found.value, a)
  }

  /** The placement on one day: a block exactly when some candidate of the day is free,
      and then the one at the first free candidate. */
  function ActivityOnDay(a: Activity, day: Day, week: Week): (r: seq<Placed>)
    ensures |r| <= 1
    ensures r != [] <==> exists i :: 0 <= i < |ActivityCandidates(a, day)| && Free(ActivityCandidates(a, day)[i], week)
    ensures forall x :: x in r <==> PlacementOf(x, a, day, week)
    ensures forall x :: x in r ==> x.day == day && PlacedFree(x, a, week)
  {
    var found := FindBestActivitySlot(a, day, week);
    ActivitySlotFirstFit(a, day, week);
    if found.Some? then
      var x := ActivityBlock(found.value, a);
      assert x.block.start == found.value.start && x.block.end == found.value.end;
      [x]
    else []
  }

  /** A placed activity block of `a` whose interval was free in `week`. */
  predicate PlacedFree(x: Placed, a: Activity, week: Week)
  {
    x.block.kind == ActivityItem(a.name, a.icon, a.priority)
    && IsSlotAvailable(x.day, x.block.start, x.block.end, week)
  }

  /** The days on which the search for `a` finds a slot. */
  function FoundOn(a: Activity, week: Week): Day -> bool
  {
    d => FindBestActivitySlot(a, d, week).Some?
  }

  /** The inner loop of `scheduleActivities`: one block for every chosen day whose
      search succeeds, the placements of `a` being exactly those found on the chosen
      days, and over distinct days no day gets two. */
  function ActivityOnDays(a: Activity, days: seq<Day>, week: Week): (r: seq<Placed>)
    ensures |r| == Count(days, FoundOn(a, week))
    ensures forall x :: x in r <==> exists d :: d in days && PlacementOf(x, a, d, week)
    ensures forall x :: x in r ==> x.day in days && PlacedFree(x, a, week)
    ensures Distinct(days) ==> forall i, j :: 0 <= i < j < |r| ==> r[i].day != r[j].day
  {
    if days == [] then []
    else
      var here := ActivityOnDay(a, days[0], week);
      var rest := ActivityOnDays(a, days[1..], week);
      OnDaysMembers(a, days, week, here, rest);
      OnDaysDistinct(days, here, rest);
      here + rest
  }

  /** The days are visited in order: trying `xs` and then `ys` gives the blocks found on
      `xs` followed by those found on `ys`, so the blocks follow the order of the days. */
  lemma {:induction false} OnDaysConcat(a: Activity, xs: seq<Day>, ys: seq<Day>, week: Week)
    ensures ActivityOnDays(a, xs + ys, week) == ActivityOnDays(a, xs, week) + ActivityOnDays(a, ys, week)
  {
    if xs == [] {
      assert xs + ys == ys;
    } else {
      assert (xs + ys)[0] == xs[0];
      assert (xs + ys)[1..] == xs[1..] + ys;
      OnDaysConcat(a, xs[1..], ys, week);
    }
  }

  /** Trying a single day is `ActivityOnDay`. */
  lemma OnDaysSingle(a: Activity, d: Day, week: Week)
    ensures ActivityOnDays(a, [d], week) == ActivityOnDay(a, d, week)
  {
    assert [d][1..] == [];
  }

  lemma OnDaysMembers(a: Activity, days: seq<Day>, week: Week, here: seq<Placed>, rest: seq<Placed>)
    requires days != []
    requires forall x :: x in here <==> PlacementOf(x, a, days[0], week)
    requires forall x :: x in rest <==> exists d :: d in days[1..] && PlacementOf(x, a, d, week)
    ensures forall x :: x in here + rest <==> exists d :: d in days && PlacementOf(x, a, d, week)
  {
    assert forall d :: d in days <==> d == days[0] || d in days[1..];
  }

  lemma OnDaysDistinct(days: seq<Day>, here: seq<Placed>, rest: seq<Placed>)
    requires days != []
    requires forall x :: x in here ==> x.day == days[0]
    requires forall x :: x in rest ==> x.day in days[1..]
    requires |here| <= 1
    requires Distinct(days[1..]) ==> forall i, j :: 0 <= i < j < |rest| ==> rest[i].day != rest[j].day
    ensures Distinct(days) ==> forall i, j :: 0 <= i < j < |here + rest| ==> (here + rest)[i].day != (here + rest)[j].day
  {
    if Distinct(days) {
      var r := here + rest;
      assert Distinct(days[1..]);
      assert days[0] !in days[1..];
      forall i, j | 0 <= i < j < |r| ensures r[i].day != r[j].day {
        assert r[j] == rest[j - |here|];
        assert r[j] in rest;
        if i < |here| {
          assert r[i] in here;
        } else {
          assert r[i] == rest[i - |here|];
        }
      }
    }
  }

  /** `getActivityFrequency` then `selectDaysForActivity`: the days an activity is tried
      on, each at most once. A label that names an inherited object member gives no day
      at all, because the stride `7 / frequency` and the test `i < frequency` then meet
      NaN. */
  function ActivityDays(a: Activity): (r: seq<Day>)
    ensures Distinct(r)
    ensures a.frequency in InheritedNames ==> r == []
    ensures a.frequency == "Weekends" ==> r == [Saturday, Sunday]
    ensures a.frequency !in InheritedNames && a.frequency != "Weekends" ==> |r| == ActivityFrequency(a.frequency).value
  {
    var n := ActivityFrequency(a.frequency);
    if n.Some? then SelectDays(a.frequency, n.value) else []
  }

  /** `scheduleActivities`: every activity is searched against the same week; what is
      found is collected, not written back. A block is returned exactly when it is the
      slot found for one of the activities on one of its days. */
  function ScheduleActivities(activities: seq<Activity>, week: Week): (r: seq<Placed>)
    ensures |r| == Successes(activities, week)
    ensures forall x :: x in r <==> exists a, d :: a in activities && d in ActivityDays(a) && PlacementOf(x, a, d, week)
    ensures forall x :: x in r ==> IsActivity(x.block) && IsSlotAvailable(x.day, x.block.start, x.block.end, week)
  {
    if activities == [] then []
    else
      var a0 := activities[0];
      var here := ActivityOnDays(a0, ActivityDays(a0), week);
      var rest := ScheduleActivities(activities[1..], week);
      assert forall a :: a in activities <==> a == a0 || a in activities[1..];
      forall x | x in here
        ensures exists a, d :: a in activities && d in ActivityDays(a) && PlacementOf(x, a, d, week)
      {
        var d :| d in ActivityDays(a0) && PlacementOf(x, a0, d, week);
      }
      here + rest
  }

  /** How many blocks the activities get: for each activity, the number of its chosen
      days whose search succeeds. */
  function Successes(activities: seq<Activity>, week: Week): nat
  {
    if activities == [] then 0
    else Count(ActivityDays(activities[0]), FoundOn(activities[0], week)) + Successes(activities[1..], week)
  }

  /** A single activity gets exactly the blocks its own day loop finds. Together with
      `ActivitiesIndependent` this fixes the result, activity by activity. */
  lemma ScheduleOneActivity(a: Activity, week: Week)
    ensures ScheduleActivities([a], week) == ActivityOnDays(a, ActivityDays(a), week)
  {
    assert [a][1..] == [];
  }

  /** Over its chosen days an activity is placed at most once a day. */
  lemma ActivityOncePerDay(a: Activity, week: Week)
    ensures var r := ActivityOnDays(a, ActivityDays(a), week);
      forall i, j :: 0 <= i < j < |r| ==> r[i].day != r[j].day
  {
  }

  /** Nothing keeps activities apart from each other: two activities searched alike (same
      duration, hours and flexibility) on a shared day get the very same slot, and both
      are returned. */
  lemma ActivitiesMayOverlap(a: Activity, b: Activity, d: Day, week: Week)
    requires a.duration == b.duration && a.preferredTimes == b.preferredTimes && a.flexible == b.flexible
    requires d in ActivityDays(a) && d in ActivityDays(b)
    requires FindBestActivitySlot(a, d, week).Some?
    ensures var s := FindBestActivitySlot(a, d, week).value;
      && FindBestActivitySlot(b, d, week) == Some(s)
      && ActivityBlock(s, a) in ScheduleActivities([a, b], week)
      && ActivityBlock(s, b) in ScheduleActivities([a, b], week)
      && (s.start < s.end ==> Overlaps(s.start, s.end, ActivityBlock(s, b).block))
  {
    assert ActivityCandidates(a, d) == ActivityCandidates(b, d);
    ActivitySlotFirstFit(a, d, week);
    ActivitySlotFirstFit(b, d, week);
    var s := FindBestActivitySlot(a, d, week).value;
    assert PlacementOf(ActivityBlock(s, a), a, d, week);
    assert PlacementOf(ActivityBlock(s, b), b, d, week);
    assert a in [a, b] && b in [a, b];
  }

  /** Placements do not see each other: scheduling two lists of activities together
      gives the two results one after the other. */
  lemma {:induction false} ActivitiesIndependent(xs: seq<Activity>, ys: seq<Activity>, week: Week)
    ensures ScheduleActivities(xs + ys, week) == ScheduleActivities(xs, week) + ScheduleActivities(ys, week)
  {
    if xs == [] {
      assert xs + ys == ys;
    } else {
      assert (xs + ys)[0] == xs[0];
      assert (xs + ys)[1..] == xs[1..] + ys;
      ActivitiesIndependent(xs[1..], ys, week);
    }
  }
}

=== FILE: clock.dfy ===
/** Wall-clock times of one civil day: the "HH:MM" text the application stores,
    its minute-of-day value, and the add/subtract arithmetic that wraps at midnight
    (src/utils/scheduleGenerator.js, timeToMinutes, addMinutes, subtractMinutes). */
module Clock {

  const MinutesPerDay: int := 1440

  /** A minute of the day, 00:00 .. 23:59. */
  type Minute = m: int | 0 <= m < MinutesPerDay

  predicate IsDigit(c: char)
  {
    '0' <= c <= '9'
  }

  function DigitValue(c: char): nat
    requires IsDigit(c)
  {
    (c as int) - ('0' as int)
  }

  function DigitChar(n: nat): (c: char)
    requires n < 10
    ensures IsDigit(c) && DigitValue(c) == n
  {
    (('0' as int) + n) as char
  }

  /** `n.toString().padStart(2, '0')` for a number below 100. */
  function Pad2(n: nat): (r: string)
    requires n < 100
    ensures |r| == 2 && IsDigit(r[0]) && IsDigit(r[1])
    ensures 10 * DigitValue(r[0]) + DigitValue(r[1]) == n
  {
    [DigitChar(n / 10), DigitChar(n % 10)]
  }

  /** Two digits, a colon, two digits. */
  predicate IsTimeShape(s: string)
  {
    |s| == 5 && IsDigit(s[0]) && IsDigit(s[1]) && s[2] == ':' && IsDigit(s[3]) && IsDigit(s[4])
  }

  function HourField(s: string): nat
    requires IsTimeShape(s)
  {
    10 * DigitValue(s[0]) + DigitValue(s[1])
  }

  function MinuteField(s: string): nat
    requires IsTimeShape(s)
  {
    10 * DigitValue(s[3]) + DigitValue(s[4])
  }

  /** A valid time of day: hour 00..23 and minute 00..59. */
  predicate IsClockText(s: string)
  {
    IsTimeShape(s) && HourField(s) <= 23 && MinuteField(s) <= 59
  }

  /** `timeToMinutes`: the number of minutes after midnight that "HH:MM" denotes. */
  function TimeToMinutes(s: string): (r: nat)
    requires IsTimeShape(s)
    ensures IsClockText(s) ==> r < MinutesPerDay && r / 60 == HourField(s) && r % 60 == MinuteField(s)
  {
    var r := HourField(s) * 60 + MinuteField(s);
    assert IsClockText(s) ==> r / 60 == HourField(s) && r % 60 == MinuteField(s) by {
      if IsClockText(s) {
        DivModUnique(r, 60, HourField(s), MinuteField(s));
      }
    }
    r
  }

  /** The "HH:MM" text of a minute of the day, as the template strings build it. */
  function Format(m: Minute): (r: string)
    ensures IsClockText(r)
  {
    Pad2(m / 60) + ":" + Pad2(m % 60)
  }

  /** Reading back a formatted time gives the minute it was made from. */
  lemma FormatThenParse(m: Minute)
    ensures TimeToMinutes(Format(m)) == m
  {
    var r := Format(m);
    assert HourField(r) == m / 60;
    assert MinuteField(r) == m % 60;
  }

  /** Formatting the value of a valid time gives back the same text. */
  lemma ParseThenFormat(s: string)
    requires IsClockText(s)
    ensures Format(TimeToMinutes(s)) == s
  {
    var m := TimeToMinutes(s);
    DivModUnique(m, 60, HourField(s), MinuteField(s));
    var r := Format(m);
    assert r[0] == s[0] && r[1] == s[1] by {
      DivModUnique(HourField(s), 10, DigitValue(s[0]), DigitValue(s[1]));
      DigitRoundTrip(s[0]);
      DigitRoundTrip(s[1]);
    }
    assert r[3] == s[3] && r[4] == s[4] by {
      DivModUnique(MinuteField(s), 10, DigitValue(s[3]), DigitValue(s[4]));
      DigitRoundTrip(s[3]);
      DigitRoundTrip(s[4]);
    }
  }

  lemma DigitRoundTrip(c: char)
    requires IsDigit(c)
    ensures DigitChar(DigitValue(c)) == c
  {
  }

  /** Division with remainder is unique. */
  lemma DivModUnique(n: int, d: int, q: int, r: int)
    requires d > 0 && 0 <= r < d && n == q * d + r
    ensures n / d == q && n % d == r
  {
    var q' := n / d;
    var r' := n % d;
    assert n == q' * d + r';
    assert (q - q') * d == r' - r;
    if q > q' {
      MulAtLeast(q - q', d);
    } else if q < q' {
      MulAtLeast(q' - q, d);
    }
  }

  lemma MulAtLeast(a: int, d: int)
    requires a >= 1 && d > 0
    ensures a * d >= d
  {
    assert a * d == (a - 1) * d + d;
  }

  /** Hours `floor(total / 60) % 24` and minutes `total % 60` of a non-negative
      total, folded back into one value: the total modulo a day. */
  lemma ClockFields(total: int)
    requires total >= 0
    ensures (total / 60 % 24) * 60 + total % 60 == total % MinutesPerDay
  {
    var q := total / MinutesPerDay;
    var m := total % MinutesPerDay;
    assert total == q * MinutesPerDay + m;
    DivModUnique(total, 60, 24 * q + m / 60, m % 60);
    DivModUnique(total / 60, 24, q, m / 60);
  }

  /** `addMinutes` on minute values: the minute of day that the text the source builds
      from `floor(total / 60) % 24` and `total % 60` denotes. */
  function AddMinutes(t: int, d: int): (r: Minute)
    requires t + d >= 0
    ensures r == (t + d) % MinutesPerDay
  {
    var total := t + d;
    ClockFields(total);
    (total / 60 % 24) * 60 + total % 60
  }

  /** `subtractMinutes` on minute values: one day is added back when the difference is
      negative, then the same hour/minute split as `addMinutes` is applied. */
  function SubtractMinutes(t: int, d: int): (r: Minute)
    requires t - d + MinutesPerDay >= 0
    ensures r == (t - d) % MinutesPerDay
  {
    var total := if t - d < 0 then t - d + MinutesPerDay else t - d;
    ClockFields(total);
    assert total % MinutesPerDay == (t - d) % MinutesPerDay by {
      if t - d < 0 {
        DivModUnique(t - d, MinutesPerDay, -1, t - d + MinutesPerDay);
        DivModUnique(total, MinutesPerDay, 0, total);
      }
    }
    (total / 60 % 24) * 60 + total % 60
  }

  /** `addMinutes` as the source writes it, on "HH:MM" text: the result is a zero-padded
      valid time whose value is the input's value plus `d`, modulo one day. */
  function AddMinutesText(s: string, d: int): (r: string)
    requires IsTimeShape(s) && TimeToMinutes(s) + d >= 0
    ensures IsClockText(r)
    ensures TimeToMinutes(r) == AddMinutes(TimeToMinutes(s), d)
  {
    var total := TimeToMinutes(s) + d;
    ClockFields(total);
    var r := Pad2(total / 60 % 24) + ":" + Pad2(total % 60);
    assert HourField(r) == total / 60 % 24 && MinuteField(r) == total % 60;
    r
  }

  /** `subtractMinutes` as the source writes it, on "HH:MM" text. */
  function SubtractMinutesText(s: string, d: int): (r: string)
    requires IsTimeShape(s) && TimeToMinutes(s) - d + MinutesPerDay >= 0
    ensures IsClockText(r)
    ensures TimeToMinutes(r) == SubtractMinutes(TimeToMinutes(s), d)
  {
    var t := TimeToMinutes(s);
    var total := if t - d < 0 then t - d + MinutesPerDay else t - d;
    ClockFields(total);
    var r := Pad2(total / 60 % 24) + ":" + Pad2(total % 60);
    assert HourField(r) == total / 60 % 24 && MinuteField(r) == total % 60;
    assert total % MinutesPerDay == (t - d) % MinutesPerDay by {
      if t - d < 0 {
        DivModUnique(t - d, MinutesPerDay, -1, t - d + MinutesPerDay);
        DivModUnique(total, MinutesPerDay, 0, total);
      }
    }
    r
  }

  /** Going back `d` minutes and then forward `d` minutes returns to the same time of
      day: the morning commute, which starts `d` minutes before a class, ends exactly
      when the class starts. */
  lemma AddThenSubtract(t: Minute, d: int)
    requires 0 <= d <= MinutesPerDay
    ensures SubtractMinutes(AddMinutes(t, d), d) == t
  {
    var a := AddMinutes(t, d);
    var q := (t + d) / MinutesPerDay;
    assert t + d == q * MinutesPerDay + a;
    DivModUnique(a - d, MinutesPerDay, -q, t);
  }

  lemma SubtractThenAdd(t: Minute, d: int)
    requires 0 <= d <= t + MinutesPerDay
    ensures AddMinutes(SubtractMinutes(t, d), d) == t
  {
    var s := SubtractMinutes(t, d);
    var q := (t - d) / MinutesPerDay;
    assert t - d == q * MinutesPerDay + s;
    DivModUnique(s + d, MinutesPerDay, -q, t);
  }
}

=== FILE: essentials.dfy ===
/** The figures the life-essentials form shows while the student fills it in: how long
    the chosen bedtime and wake time let them sleep, a verdict on that, and the
    round-trip commute (src/pages/Onboarding/LifeEssentials.jsx). */
module LifeEssentials {
  import opened Clock
  import opened Inputs
  import Generator

  /** Whole hours, remaining minutes, and the total in minutes. */
  datatype SleepData = SleepData(hours: nat, minutes: nat, total: nat)

  /** `calculateSleepHours`: the minutes from bedtime to the next wake time. A wake time
      not later than the bedtime is taken to be on the following day, so equal times
      mean a full day. */
  function CalculateSleepHours(bedtime: string, wakeTime: string): (r: SleepData)
    requires IsClockText(bedtime) && IsClockText(wakeTime)
    ensures 1 <= r.total <= MinutesPerDay
    ensures (TimeToMinutes(bedtime) + r.total) % MinutesPerDay == TimeToMinutes(wakeTime)
    ensures r.hours * 60 + r.minutes == r.total && r.minutes < 60
    ensures r.hours <= 24
  {
    var bed := HourField(bedtime) * 60 + MinuteField(bedtime);
    var wake0 := HourField(wakeTime) * 60 + MinuteField(wakeTime);
    var wake := if wake0 <= bed then wake0 + 24 * 60 else wake0;
    var total := wake - bed;
    assert (bed + total) % MinutesPerDay == wake0 by {
      if wake0 <= bed {
        DivModUnique(bed + total, MinutesPerDay, 1, wake0);
      } else {
        DivModUnique(bed + total, MinutesPerDay, 0, wake0);
      }
    }
    SleepData(total / 60, total % 60, total)
  }

  /** The total is the only span of 1 to 1440 minutes that leads from the bedtime to
      the wake time on the clock. */
  lemma SleepTotalUnique(bedtime: string, wakeTime: string, t: int)
    requires IsClockText(bedtime) && IsClockText(wakeTime)
    requires 1 <= t <= MinutesPerDay && (TimeToMinutes(bedtime) + t) % MinutesPerDay == TimeToMinutes(wakeTime)
    ensures CalculateSleepHours(bedtime, wakeTime).total == t
  {
    var r := CalculateSleepHours(bedtime, wakeTime);
    var bed := TimeToMinutes(bedtime);
    var q := (bed + t) / MinutesPerDay;
    var q' := (bed + r.total) / MinutesPerDay;
    assert bed + t == q * MinutesPerDay + TimeToMinutes(wakeTime);
    assert bed + r.total == q' * MinutesPerDay + TimeToMinutes(wakeTime);
    assert 0 <= q <= 1 && 0 <= q' <= 1;
  }

  /** Going to bed and getting up at the same time reads as a full day of sleep. */
  lemma SameTimeIsFullDay(t: string)
    requires IsClockText(t)
    ensures CalculateSleepHours(t, t) == SleepData(24, 0, MinutesPerDay)
  {
  }

  /** The verdict on a night's whole hours. */
  datatype SleepQuality = Optimal | Good | TooLittle | TooMuch

  /** `getSleepQuality` on whole hours: 7 to 9 is optimal, 6 is good, fewer is too
      little and more is too much. */
  function GetSleepQuality(hours: int): (q: SleepQuality)
    ensures q == Optimal <==> 7 <= hours <= 9
    ensures q == Good <==> hours == 6
    ensures q == TooLittle <==> hours < 6
    ensures q == TooMuch <==> hours >= 10
  {
    if 7 <= hours <= 9 then Optimal
    else if 6 <= hours < 7 then Good
    else if hours < 6 then TooLittle
    else TooMuch
  }

  /** Read on the total minutes of sleep: 7 hours up to (not including) 10 hours is
      optimal, 6 hours up to 7 is good, less is too little, and 10 hours or more is too
      much. */
  lemma QualityOfTotal(bedtime: string, wakeTime: string)
    requires IsClockText(bedtime) && IsClockText(wakeTime)
    ensures var total := CalculateSleepHours(bedtime, wakeTime).total;
      var q := GetSleepQuality(CalculateSleepHours(bedtime, wakeTime).hours);
      && (q == Optimal <==> 7 * 60 <= total < 10 * 60)
      && (q == Good <==> 6 * 60 <= total < 7 * 60)
      && (q == TooLittle <==> total < 6 * 60)
      && (q == TooMuch <==> total >= 10 * 60)
  {
  }

  /** The form's default of 23:00 to 07:00 is eight hours, which is optimal. */
  lemma DefaultNight()
    ensures CalculateSleepHours("23:00", "07:00") == SleepData(8, 0, 480)
    ensures GetSleepQuality(8) == Optimal
  {
  }

  // Commute

  /** The values the commute slider can take: 0 to 120 minutes in steps of 5. */
  predicate SliderCommute(c: int)
  {
    0 <= c <= 120 && c % 5 == 0
  }

  /** The round trip as displayed: total minutes, whole hours and remaining minutes. */
  datatype RoundTrip = RoundTrip(total: nat, hours: nat, minutes: nat)

  /** The "daily commute time" line: twice the one-way time, split into
      `Math.floor(2c / 60)` hours and `2c % 60` minutes. */
  function RoundTripCommute(commute: nat): (r: RoundTrip)
    ensures r.total == 2 * commute
    ensures r.hours * 60 + r.minutes == r.total && r.minutes < 60
  {
    RoundTrip(commute * 2, commute * 2 / 60, commute * 2 % 60)
  }

  /** For a slider value the round trip is at most four hours and its minutes are a
      multiple of ten. */
  lemma SliderRoundTrip(c: nat)
    requires SliderCommute(c)
    ensures RoundTripCommute(c).hours <= 4
    ensures RoundTripCommute(c).minutes % 10 == 0
  {
    var k := c / 5;
    assert c == 5 * k;
    var r := RoundTripCommute(c);
    assert 10 * k == 60 * r.hours + r.minutes;
  }

  /** Every commute the slider offers is one the generator handles. */
  lemma SliderCommuteGenerates(e: Essentials)
    requires SliderCommute(e.commute)
    ensures Generator.WellFormed(e)
  {
  }
}

=== FILE: generator.dfy ===
/** `generateSchedule`: the seven steps that turn the timetable, the essentials, the
    study preferences and the activities into a sorted week and its statistics
    (src/utils/scheduleGenerator.js). The artificial delay before the first step is
    not modelled. */
module Generator {
  import opened Seqs
  import opened Clock
  import opened Week
  import opened Inputs
  import opened SlotSearch
  import opened StudyPlan
  import opened ActivityPlan
  import opened Stats

  datatype Generated = Generated(schedule: Week, stats: Stats)

  /** The source accepts any commute, but beyond 1425 minutes `subtractMinutes` would
      need more than one day added back; the form offers 0 to 120. */
  predicate WellFormed(e: Essentials)
  {
    e.commute <= 1425
  }

  // Step 1: classes

  function ClassBlock(c: ClassEntry): Block
  {
    Block(c.start, c.end, ClassItem(c.classType, c.subject, c.room, c.professor, c.frequency))
  }

  function ClassPlacements(classes: seq<ClassEntry>): (r: seq<Placed>)
    ensures |r| == |classes|
    ensures forall i :: 0 <= i < |r| ==> r[i] == Placed(classes[i].day, ClassBlock(classes[i]))
  {
    if classes == [] then [] else [Placed(classes[0].day, ClassBlock(classes[0]))] + ClassPlacements(classes[1..])
  }

  /** The classes held on `d`, in the order they were given. */
  function ClassesOn(classes: seq<ClassEntry>, d: Day): (r: seq<ClassEntry>)
    ensures forall c :: c in r <==> c in classes && c.day == d
  {
    if classes == [] then []
    else
      assert forall c :: c in classes <==> c == classes[0] || c in classes[1..];
      (if classes[0].day == d then [classes[0]] else []) + ClassesOn(classes[1..], d)
  }

  function ClassBlocks(cs: seq<ClassEntry>): (r: seq<Block>)
    ensures |r| == |cs|
    ensures forall i :: 0 <= i < |r| ==> r[i] == ClassBlock(cs[i])
  {
    if cs == [] then [] else [ClassBlock(cs[0])] + ClassBlocks(cs[1..])
  }

  /** Step 1: every class pushed onto its day, in input order. */
  function ClassWeek(classes: seq<ClassEntry>): Week
  {
    Push(EmptyWeek, ClassPlacements(classes))
  }

  /** The day lists after step 1 are the classes of each day, in input order. */
  lemma {:induction false} ClassWeekDay(classes: seq<ClassEntry>, d: Day)
    ensures ClassWeek(classes)[d] == ClassBlocks(ClassesOn(classes, d))
  {
    ClassPlacementsOn(classes, d);
  }

  lemma {:induction false} ClassPlacementsOn(classes: seq<ClassEntry>, d: Day)
    ensures BlocksOn(ClassPlacements(classes), d) == ClassBlocks(ClassesOn(classes, d))
  {
    if classes != [] {
      ClassPlacementsOn(classes[1..], d);
      var ps := ClassPlacements(classes);
      assert ps[1..] == ClassPlacements(classes[1..]);
      if classes[0].day == d {
        assert ClassBlocks(ClassesOn(classes, d)) == [ClassBlock(classes[0])] + ClassBlocks(ClassesOn(classes[1..], d));
      }
    }
  }

  // Step 2: commutes

  /** The two commute blocks of a day, or none. There are two when the day holds a
      class and the commute is positive. The first leaves `commute + 15` minutes before
      the first class starts and arrives as it starts. The second leaves as the last
      class ends and takes `commute` minutes. First and last are by position in the day
      list, not by time. */
  function CommuteBlocks(dayBlocks: seq<Block>, commute: int): (r: seq<Block>)
    requires commute <= 1425
    ensures forall b :: b in r ==> IsCommute(b)
    ensures var cs := Filter(dayBlocks, IsClass);
      && (r != [] <==> cs != [] && commute > 0)
      && (r != [] ==>
            && |r| == 2
            && r[0].kind == CommuteItem(true) && r[0].end == cs[0].start
            && AddMinutes(r[0].start, commute + 15) == cs[0].start
            && r[1].kind == CommuteItem(false) && r[1].start == cs[|cs| - 1].end
            && SubtractMinutes(r[1].end, commute) == cs[|cs| - 1].end)
  {
    var cs := Filter(dayBlocks, IsClass);
    if |cs| > 0 && commute > 0 then
      CommuteTiming(cs[0], cs[|cs| - 1], commute);
      [Inbound(cs[0], commute), Outbound(cs[|cs| - 1], commute)]
    else []
  }

  /** The trip to the first class, with a quarter of an hour's margin. */
  function Inbound(first: Block, commute: int): Block
    requires commute <= 1425
  {
    Block(SubtractMinutes(first.start, commute + 15), first.start, CommuteItem(true))
  }

  /** The trip home after the last class. */
  function Outbound(last: Block, commute: int): Block
    requires commute + last.end >= 0
  {
    Block(last.end, AddMinutes(last.end, commute), CommuteItem(false))
  }

  /** Leaving `commute + 15` minutes before the first class gets there in time (the
      clock wrapping past midnight if need be), and going home takes `commute` minutes
      from the end of the last class. */
  lemma CommuteTiming(first: Block, last: Block, commute: int)
    requires 0 < commute <= 1425
    ensures Inbound(first, commute).end == first.start
    ensures AddMinutes(Inbound(first, commute).start, commute + 15) == first.start
    ensures Outbound(last, commute).start == last.end
    ensures SubtractMinutes(Outbound(last, commute).end, commute) == last.end
  {
    SubtractThenAdd(first.start, commute + 15);
    AddThenSubtract(last.end, commute);
  }

  /** Nothing keeps a commute clear of the meals: a 30-minute commute to a class at
      08:00 leaves at 07:15 and overlaps a breakfast from 07:30 to 08:00. */
  lemma CommuteMayOverlapBreakfast()
    ensures var inbound := Inbound(Block(8 * 60, 10 * 60, ClassItem("", "Math", "", "", "")), 30);
      var breakfast := Block(7 * 60 + 30, AddMinutes(7 * 60 + 30, 30), MealItem(Breakfast));
      && inbound.start == 7 * 60 + 15 && inbound.end == 8 * 60
      && Overlaps(inbound.start, inbound.end, breakfast)
      && Overlaps(breakfast.start, breakfast.end, inbound)
  {
  }

  /** The commutes of a day with classes `cs`, read off the class entries: to the class
      given first and from the class given last. */
  function CommutesFor(cs: seq<ClassEntry>, commute: int): seq<Block>
    requires commute <= 1425
  {
    if cs != [] && commute > 0 then [Inbound(ClassBlock(cs[0]), commute), Outbound(ClassBlock(cs[|cs| - 1]), commute)]
    else []
  }

  /** A day's commutes: two when it has a class and the commute is positive, to the class
      given first and from the class given last; otherwise none. */
  lemma CommutesOfDay(cs: seq<ClassEntry>, commute: int)
    requires commute <= 1425
    ensures |CommuteBlocks(ClassBlocks(cs), commute)| == if cs != [] && commute > 0 then 2 else 0
    ensures CommuteBlocks(ClassBlocks(cs), commute) == CommutesFor(cs, commute)
  {
    FilterAll(ClassBlocks(cs), IsClass);
  }

  /** Step 2: every day keeps its blocks, in order, and gains two commutes after them
      when it holds a class and the commute is positive; otherwise it is unchanged. */
  function AddCommutes(w: Week, commute: int): (r: Week)
    requires commute <= 1425
    ensures forall d :: |r[d]| == |w[d]| + (if Count(w[d], IsClass) > 0 && commute > 0 then 2 else 0)
    ensures forall d :: r[d][..|w[d]|] == w[d]
    ensures forall d, i :: |w[d]| <= i < |r[d]| ==> IsCommute(r[d][i])
  {
    map d: Day | true :: w[d] + CommuteBlocks(w[d], commute)
  }

  // Steps 3 and 4: meals and sleep, the same on every day

  /** Step 3: breakfast, lunch and dinner, each from its time for its duration, the end
      wrapping past midnight if need be. */
  function MealBlocks(e: Essentials): (r: seq<Block>)
    ensures |r| == 3 && forall i :: 0 <= i < 3 ==> IsMeal(r[i])
    ensures r[0].kind == MealItem(Breakfast) && r[0].start == e.breakfast.time
         && r[0].end == (e.breakfast.time + e.breakfast.duration) % MinutesPerDay
    ensures r[1].kind == MealItem(Lunch) && r[1].start == e.lunch.time
         && r[1].end == (e.lunch.time + e.lunch.duration) % MinutesPerDay
    ensures r[2].kind == MealItem(Dinner) && r[2].start == e.dinner.time
         && r[2].end == (e.dinner.time + e.dinner.duration) % MinutesPerDay
  {
    [Block(e.breakfast.time, AddMinutes(e.breakfast.time, e.breakfast.duration), MealItem(Breakfast)),
     Block(e.lunch.time, AddMinutes(e.lunch.time, e.lunch.duration), MealItem(Lunch)),
     Block(e.dinner.time, AddMinutes(e.dinner.time, e.dinner.duration), MealItem(Dinner))]
  }

  /** Step 4: sleep as two blocks, bedtime to 23:59 and midnight to the wake time. The
      intervals are half-open, so the last minute of the day, 23:59, is in neither. */
  function SleepBlocks(e: Essentials): (r: seq<Block>)
    ensures |r| == 2 && forall i :: 0 <= i < 2 ==> IsSleep(r[i])
    ensures r[0].start == e.bedtime && r[1].start == 0 && r[1].end == e.wakeTime
    ensures forall m: Minute :: Covered(r, m) <==> e.bedtime <= m < MinutesPerDay - 1 || m < e.wakeTime
  {
    var r := [Block(e.bedtime, MinutesPerDay - 1, SleepItem), Block(0, e.wakeTime, SleepItem)];
    assert forall m: Minute :: Covered(r, m) <==> (r[0].start <= m < r[0].end || r[1].start <= m < r[1].end);
    r
  }

  /** Minute `m` lies inside one of the blocks. */
  predicate Covered(bs: seq<Block>, m: int)
  {
    exists i :: 0 <= i < |bs| && bs[i].start <= m < bs[i].end
  }

  function AddDaily(w: Week, bs: seq<Block>): (r: Week)
    ensures forall d :: r[d] == w[d] + bs
  {
    map d: Day | true :: w[d] + bs
  }

  /** The week after steps 1 to 4: what the study search sees. */
  function BaseWeek(classes: seq<ClassEntry>, e: Essentials): Week
    requires WellFormed(e)
  {
    AddDaily(AddDaily(AddCommutes(ClassWeek(classes), e.commute), MealBlocks(e)), SleepBlocks(e))
  }

  /** One day of the base week, part by part. */
  function BaseDay(classes: seq<ClassEntry>, e: Essentials, d: Day): seq<Block>
    requires WellFormed(e)
  {
    var cls := ClassBlocks(ClassesOn(classes, d));
    cls + CommuteBlocks(cls, e.commute) + MealBlocks(e) + SleepBlocks(e)
  }

  lemma BaseWeekDay(classes: seq<ClassEntry>, e: Essentials, d: Day)
    requires WellFormed(e)
    ensures BaseWeek(classes, e)[d] == BaseDay(classes, e, d)
  {
    ClassWeekDay(classes, d);
  }

  // Steps 5 to 7

  function Sessions(classes: seq<ClassEntry>, p: StudyPrefs, e: Essentials): seq<Placed>
    requires WellFormed(e)
  {
    GenerateStudySessions(classes, p, BaseWeek(classes, e))
  }

  /** The week after step 5: what the activity search sees. */
  function StudyWeek(classes: seq<ClassEntry>, p: StudyPrefs, e: Essentials): Week
    requires WellFormed(e)
  {
    Push(BaseWeek(classes, e), Sessions(classes, p, e))
  }

  function PlacedActivities(classes: seq<ClassEntry>, activities: seq<Activity>, p: StudyPrefs, e: Essentials): seq<Placed>
    requires WellFormed(e)
  {
    ScheduleActivities(activities, StudyWeek(classes, p, e))
  }

  /** The week after step 6, before sorting. */
  function FullWeek(classes: seq<ClassEntry>, activities: seq<Activity>, p: StudyPrefs, e: Essentials): Week
    requires WellFormed(e)
  {
    Push(StudyWeek(classes, p, e), PlacedActivities(classes, activities, p, e))
  }

  /** Step 7: each day stably sorted by start time. */
  function SortDays(w: Week): (r: Week)
    ensures forall d :: SortedBy(r[d], StartOf) && multiset(r[d]) == multiset(w[d])
  {
    map d: Day | true :: SortBy(w[d], StartOf)
  }

  /** The sorted week `generateSchedule` returns. */
  function Schedule(classes: seq<ClassEntry>, activities: seq<Activity>, p: StudyPrefs, e: Essentials): Week
    requires WellFormed(e)
  {
    SortDays(FullWeek(classes, activities, p, e))
  }

  /** `generateSchedule`: every day sorted by start time and holding exactly the blocks the
      steps produced; the statistics are those of the sorted week. */
  function GenerateSchedule(classes: seq<ClassEntry>, activities: seq<Activity>, p: StudyPrefs, e: Essentials): (g: Generated)
    requires WellFormed(e)
    ensures forall d :: SortedBy(g.schedule[d], StartOf)
    ensures forall d :: multiset(g.schedule[d]) == multiset(FullWeek(classes, activities, p, e)[d])
    ensures g.stats.totalClasses == WeekCount(g.schedule, IsClass)
  {
    var w := Schedule(classes, activities, p, e);
    Generated(w, CalculateStats(w))
  }

  /** One generated day, before sorting: its classes, its commutes, the meals, the sleep,
      then the study sessions and the activities placed on it. */
  lemma FullDay(classes: seq<ClassEntry>, activities: seq<Activity>, p: StudyPrefs, e: Essentials, d: Day)
    requires WellFormed(e)
    ensures FullWeek(classes, activities, p, e)[d]
         == BaseDay(classes, e, d) + BlocksOn(Sessions(classes, p, e), d)
            + BlocksOn(PlacedActivities(classes, activities, p, e), d)
  {
    BaseWeekDay(classes, e, d);
  }

  // The parts a generated day is made of

  /** The six parts a generated day is made of, in the order the steps append them. */
  datatype Parts = Parts(cls: seq<Block>, com: seq<Block>, meals: seq<Block>, sleep: seq<Block>,
                         study: seq<Block>, acts: seq<Block>)

  /** The parts laid down before the study search: classes, commutes, meals, sleep. */
  function Fixed(x: Parts): seq<Block>
  {
    x.cls + x.com + x.meals + x.sleep
  }

  function Joined(x: Parts): seq<Block>
  {
    Fixed(x) + x.study + x.acts
  }

  /** Each part holds blocks of its own kind only. */
  predicate Typed(x: Parts)
  {
    (forall b :: b in x.cls ==> IsClass(b)) && (forall b :: b in x.com ==> IsCommute(b))
    && (forall b :: b in x.meals ==> IsMeal(b)) && (forall b :: b in x.sleep ==> IsSleep(b))
    && (forall b :: b in x.study ==> IsStudy(b)) && (forall b :: b in x.acts ==> IsActivity(b))
  }

  /** `day` is the parts `x`, each of its own kind, sorted by start time. */
  predicate DayOf(day: seq<Block>, x: Parts)
  {
    day == SortBy(Joined(x), StartOf) && Typed(x)
  }

  /** A block of one of the kinds laid down before the study search. */
  predicate IsFixed(b: Block)
  {
    IsClass(b) || IsCommute(b) || IsMeal(b) || IsSleep(b)
  }

  function PartsOf(classes: seq<ClassEntry>, activities: seq<Activity>, p: StudyPrefs, e: Essentials, d: Day): Parts
    requires WellFormed(e)
  {
    var cls := ClassBlocks(ClassesOn(classes, d));
    Parts(cls, CommuteBlocks(cls, e.commute), MealBlocks(e), SleepBlocks(e),
          BlocksOn(Sessions(classes, p, e), d), BlocksOn(PlacedActivities(classes, activities, p, e), d))
  }

  /** A generated day is its six parts sorted by start time. */
  lemma ScheduleDay(classes: seq<ClassEntry>, activities: seq<Activity>, p: StudyPrefs, e: Essentials, d: Day)
    requires WellFormed(e)
    ensures DayOf(Schedule(classes, activities, p, e)[d], PartsOf(classes, activities, p, e, d))
  {
    ScheduleJoined(classes, activities, p, e, d);
    PartsTyped(classes, activities, p, e, d);
  }

  lemma ScheduleJoined(classes: seq<ClassEntry>, activities: seq<Activity>, p: StudyPrefs, e: Essentials, d: Day)
    requires WellFormed(e)
    ensures Schedule(classes, activities, p, e)[d] == SortBy(Joined(PartsOf(classes, activities, p, e, d)), StartOf)
  {
    ScheduleSorted(classes, activities, p, e, d);
    FullDay(classes, activities, p, e, d);
  }

  lemma ScheduleSorted(classes: seq<ClassEntry>, activities: seq<Activity>, p: StudyPrefs, e: Essentials, d: Day)
    requires WellFormed(e)
    ensures Schedule(classes, activities, p, e)[d] == SortBy(FullWeek(classes, activities, p, e)[d], StartOf)
  {
  }

  lemma PartsTyped(classes: seq<ClassEntry>, activities: seq<Activity>, p: StudyPrefs, e: Essentials, d: Day)
    requires WellFormed(e)
    ensures Typed(PartsOf(classes, activities, p, e, d))
  {
    SessionBlocksAreStudy(classes, p, e, d);
  }

  lemma SessionBlocksAreStudy(classes: seq<ClassEntry>, p: StudyPrefs, e: Essentials, d: Day)
    requires WellFormed(e)
    ensures forall b :: b in BlocksOn(Sessions(classes, p, e), d) ==> IsStudy(b)
  {
    var ss := Sessions(classes, p, e);
    forall b | b in BlocksOn(ss, d) ensures IsStudy(b) {
      var i :| 0 <= i < |ss| && ss[i] == Placed(d, b);
    }
  }

  /** Sorting keeps exactly the blocks it is given. */
  lemma SortedMembers(s: seq<Block>)
    ensures forall b :: b in SortBy(s, StartOf) <==> b in s
  {
    forall b ensures b in SortBy(s, StartOf) <==> b in s {
      assert b in SortBy(s, StartOf) <==> b in multiset(SortBy(s, StartOf));
      assert b in s <==> b in multiset(s);
    }
  }

  lemma JoinedMembers(x: Parts)
    ensures forall b :: b in Joined(x) <==> b in x.cls || b in x.com || b in x.meals || b in x.sleep
                                              || b in x.study || b in x.acts
  {
  }

  lemma ClassMembers(day: seq<Block>, x: Parts)
    requires DayOf(day, x)
    ensures forall b :: b in day && IsClass(b) <==> b in x.cls
  {
    SortedMembers(Joined(x));
    JoinedMembers(x);
  }

  lemma CommuteMembers(day: seq<Block>, x: Parts)
    requires DayOf(day, x)
    ensures forall b :: b in day && IsCommute(b) <==> b in x.com
  {
    SortedMembers(Joined(x));
    JoinedMembers(x);
  }

  lemma MealMembers(day: seq<Block>, x: Parts)
    requires DayOf(day, x)
    ensures forall b :: b in day && IsMeal(b) <==> b in x.meals
  {
    SortedMembers(Joined(x));
    JoinedMembers(x);
  }

  lemma SleepMembers(day: seq<Block>, x: Parts)
    requires DayOf(day, x)
    ensures forall b :: b in day && IsSleep(b) <==> b in x.sleep
  {
    SortedMembers(Joined(x));
    JoinedMembers(x);
  }

  lemma StudyMembers(day: seq<Block>, x: Parts)
    requires DayOf(day, x)
    ensures forall b :: b in day && IsStudy(b) <==> b in x.study
  {
    SortedMembers(Joined(x));
    JoinedMembers(x);
  }

  lemma ActivityMembers(day: seq<Block>, x: Parts)
    requires DayOf(day, x)
    ensures forall b :: b in day && IsActivity(b) <==> b in x.acts
  {
    SortedMembers(Joined(x));
    JoinedMembers(x);
  }

  /** Count of a concatenation of six parts. */
  lemma CountJoined(x: Parts, q: Block -> bool)
    ensures Count(SortBy(Joined(x), StartOf), q)
         == Count(x.cls, q) + Count(x.com, q) + Count(x.meals, q) + Count(x.sleep, q)
            + Count(x.study, q) + Count(x.acts, q)
  {
    SortCount(Joined(x), StartOf, q);
    FilterConcat(Fixed(x) + x.study, x.acts, q);
    FilterConcat(Fixed(x), x.study, q);
    FilterConcat(x.cls + x.com + x.meals, x.sleep, q);
    FilterConcat(x.cls + x.com, x.meals, q);
    FilterConcat(x.cls, x.com, q);
  }

  lemma CountAllOf<T(!new)>(s: seq<T>, q: T -> bool)
    requires forall x :: x in s ==> q(x)
    ensures Count(s, q) == |s|
  {
    FilterAll(s, q);
  }

  lemma ClassPartCount(day: seq<Block>, x: Parts)
    requires DayOf(day, x)
    ensures Count(day, IsClass) == |x.cls|
  {
    CountJoined(x, IsClass);
    CountAllOf(x.cls, IsClass);
    CountNone(x.com, IsClass);
    CountNone(x.meals, IsClass);
    CountNone(x.sleep, IsClass);
    CountNone(x.study, IsClass);
    CountNone(x.acts, IsClass);
  }

  lemma CommutePartCount(day: seq<Block>, x: Parts)
    requires DayOf(day, x)
    ensures Count(day, IsCommute) == |x.com|
  {
    CountJoined(x, IsCommute);
    CountAllOf(x.com, IsCommute);
    CountNone(x.cls, IsCommute);
    CountNone(x.meals, IsCommute);
    CountNone(x.sleep, IsCommute);
    CountNone(x.study, IsCommute);
    CountNone(x.acts, IsCommute);
  }

  lemma MealPartCount(day: seq<Block>, x: Parts)
    requires DayOf(day, x)
    ensures Count(day, IsMeal) == |x.meals|
  {
    CountJoined(x, IsMeal);
    CountAllOf(x.meals, IsMeal);
    CountNone(x.cls, IsMeal);
    CountNone(x.com, IsMeal);
    CountNone(x.sleep, IsMeal);
    CountNone(x.study, IsMeal);
    CountNone(x.acts, IsMeal);
  }

  lemma SleepPartCount(day: seq<Block>, x: Parts)
    requires DayOf(day, x)
    ensures Count(day, IsSleep) == |x.sleep|
  {
    CountJoined(x, IsSleep);
    CountAllOf(x.sleep, IsSleep);
    CountNone(x.cls, IsSleep);
    CountNone(x.com, IsSleep);
    CountNone(x.meals, IsSleep);
    CountNone(x.study, IsSleep);
    CountNone(x.acts, IsSleep);
  }

  lemma StudyPartCount(day: seq<Block>, x: Parts)
    requires DayOf(day, x)
    ensures Count(day, IsStudy) == |x.study|
  {
    CountJoined(x, IsStudy);
    CountAllOf(x.study, IsStudy);
    CountNone(x.cls, IsStudy);
    CountNone(x.com, IsStudy);
    CountNone(x.meals, IsStudy);
    CountNone(x.sleep, IsStudy);
    CountNone(x.acts, IsStudy);
  }

  lemma ActivityPartCount(day: seq<Block>, x: Parts)
    requires DayOf(day, x)
    ensures Count(day, IsActivity) == |x.acts|
  {
    CountJoined(x, IsActivity);
    CountAllOf(x.acts, IsActivity);
    CountNone(x.cls, IsActivity);
    CountNone(x.com, IsActivity);
    CountNone(x.meals, IsActivity);
    CountNone(x.sleep, IsActivity);
    CountNone(x.study, IsActivity);
  }

  // Properties of the generated week

  /** Step 1 keeps the classes: the class blocks of a generated day are exactly the
      blocks of the classes given for that day, one per class. */
  lemma ClassesKept(classes: seq<ClassEntry>, activities: seq<Activity>, p: StudyPrefs, e: Essentials, d: Day)
    requires WellFormed(e)
    ensures forall b :: b in Schedule(classes, activities, p, e)[d] && IsClass(b)
                        <==> b in ClassBlocks(ClassesOn(classes, d))
    ensures Count(Schedule(classes, activities, p, e)[d], IsClass) == |ClassesOn(classes, d)|
  {
    ScheduleDay(classes, activities, p, e, d);
    ClassMembers(Schedule(classes, activities, p, e)[d], PartsOf(classes, activities, p, e, d));
    ClassPartCount(Schedule(classes, activities, p, e)[d], PartsOf(classes, activities, p, e, d));
  }

  /** Step 3: every generated day has exactly the three meals of the essentials. */
  lemma MealsEveryDay(classes: seq<ClassEntry>, activities: seq<Activity>, p: StudyPrefs, e: Essentials, d: Day)
    requires WellFormed(e)
    ensures forall b :: b in Schedule(classes, activities, p, e)[d] && IsMeal(b) <==> b in MealBlocks(e)
    ensures Count(Schedule(classes, activities, p, e)[d], IsMeal) == 3
  {
    ScheduleDay(classes, activities, p, e, d);
    MealMembers(Schedule(classes, activities, p, e)[d], PartsOf(classes, activities, p, e, d));
    MealPartCount(Schedule(classes, activities, p, e)[d], PartsOf(classes, activities, p, e, d));
  }

  /** Step 4: every generated day sleeps from bedtime to 23:59 and from 00:00 to the
      wake time, and has no other sleep block. */
  lemma SleepEveryDay(classes: seq<ClassEntry>, activities: seq<Activity>, p: StudyPrefs, e: Essentials, d: Day)
    requires WellFormed(e)
    ensures forall b :: b in Schedule(classes, activities, p, e)[d] && IsSleep(b)
                        <==> b == Block(e.bedtime, 1439, SleepItem) || b == Block(0, e.wakeTime, SleepItem)
    ensures Count(Schedule(classes, activities, p, e)[d], IsSleep) == 2
  {
    ScheduleDay(classes, activities, p, e, d);
    SleepMembers(Schedule(classes, activities, p, e)[d], PartsOf(classes, activities, p, e, d));
    SleepPartCount(Schedule(classes, activities, p, e)[d], PartsOf(classes, activities, p, e, d));
    SleepBlocksAre(e);
  }

  lemma SleepBlocksAre(e: Essentials)
    ensures forall b :: b in SleepBlocks(e) <==> b == Block(e.bedtime, 1439, SleepItem) || b == Block(0, e.wakeTime, SleepItem)
  {
  }

  /** Step 2 on a generated day: two commute blocks when the day has a class and the
      commute is positive, none otherwise. */
  lemma CommuteCount(classes: seq<ClassEntry>, activities: seq<Activity>, p: StudyPrefs, e: Essentials, d: Day)
    requires WellFormed(e)
    ensures Count(Schedule(classes, activities, p, e)[d], IsCommute)
         == if ClassesOn(classes, d) != [] && e.commute > 0 then 2 else 0
  {
    ScheduleDay(classes, activities, p, e, d);
    CommutePartCount(Schedule(classes, activities, p, e)[d], PartsOf(classes, activities, p, e, d));
    PartsCommutes(classes, activities, p, e, d);
  }

  /** ... and they are the trip to the class given first for that day and the trip home
      from the class given last. */
  lemma CommuteRule(classes: seq<ClassEntry>, activities: seq<Activity>, p: StudyPrefs, e: Essentials, d: Day)
    requires WellFormed(e)
    ensures forall b :: b in Schedule(classes, activities, p, e)[d] && IsCommute(b) <==>
                        b in CommutesFor(ClassesOn(classes, d), e.commute)
  {
    ScheduleDay(classes, activities, p, e, d);
    CommuteMembers(Schedule(classes, activities, p, e)[d], PartsOf(classes, activities, p, e, d));
    PartsCommutes(classes, activities, p, e, d);
  }

  lemma PartsCommutes(classes: seq<ClassEntry>, activities: seq<Activity>, p: StudyPrefs, e: Essentials, d: Day)
    requires WellFormed(e)
    ensures PartsOf(classes, activities, p, e, d).com == CommutesFor(ClassesOn(classes, d), e.commute)
    ensures |CommutesFor(ClassesOn(classes, d), e.commute)| == if ClassesOn(classes, d) != [] && e.commute > 0 then 2 else 0
  {
    CommutesOfDay(ClassesOn(classes, d), e.commute);
  }

  /** The slot every study session of the week is given. */
  function StudySlot(classes: seq<ClassEntry>, p: StudyPrefs, e: Essentials): Option<Slot>
    requires WellFormed(e)
  {
    FindBestStudySlot(p, BaseWeek(classes, e))
  }

  lemma FixedMembers(day: seq<Block>, x: Parts)
    requires DayOf(day, x)
    ensures forall b :: b in day && IsFixed(b) <==> b in Fixed(x)
  {
    SortedMembers(Joined(x));
    JoinedMembers(x);
  }

  lemma SettledMembers(day: seq<Block>, x: Parts)
    requires DayOf(day, x)
    ensures forall b :: b in day && !IsActivity(b) <==> b in Fixed(x) + x.study
  {
    SortedMembers(Joined(x));
    JoinedMembers(x);
  }

  /** Every session on day `d` sits in the one study slot, and that slot is on `d`. */
  lemma PartsStudy(classes: seq<ClassEntry>, activities: seq<Activity>, p: StudyPrefs, e: Essentials, d: Day)
    requires WellFormed(e)
    ensures forall b :: b in PartsOf(classes, activities, p, e, d).study ==>
      (StudySlot(classes, p, e).Some? && StudySlot(classes, p, e).value.day == d
       && b.start == StudySlot(classes, p, e).value.start && b.end == StudySlot(classes, p, e).value.end)
  {
    var found := StudySlot(classes, p, e);
    if found.Some? {
      SlotSessionsOn(Sessions(classes, p, e), d, found.value);
    } else {
      assert Sessions(classes, p, e) == [];
    }
  }

  lemma SlotSessionsOn(ss: seq<Placed>, d: Day, s: Slot)
    requires forall i :: 0 <= i < |ss| ==> SameSlot(ss[i], s)
    ensures forall b :: b in BlocksOn(ss, d) ==> s.day == d && b.start == s.start && b.end == s.end
  {
    forall b | b in BlocksOn(ss, d) ensures s.day == d && b.start == s.start && b.end == s.end {
      var i :| 0 <= i < |ss| && ss[i] == Placed(d, b);
    }
  }

  /** The study slot was free of every fixed block of its day. */
  lemma PartsStudyFree(classes: seq<ClassEntry>, activities: seq<Activity>, p: StudyPrefs, e: Essentials, d: Day)
    requires WellFormed(e)
    ensures forall b, c :: b in PartsOf(classes, activities, p, e, d).study && c in Fixed(PartsOf(classes, activities, p, e, d))
                           ==> !Overlaps(b.start, b.end, c)
  {
    PartsStudy(classes, activities, p, e, d);
    var found := StudySlot(classes, p, e);
    if found.Some? && found.value.day == d {
      BaseWeekDay(classes, e, d);
      assert Fixed(PartsOf(classes, activities, p, e, d)) == BaseWeek(classes, e)[d];
      assert Free(found.value, BaseWeek(classes, e));
    }
  }

  /** Every activity on day `d` was placed where no fixed block and no session was. */
  lemma PartsActivitiesFree(classes: seq<ClassEntry>, activities: seq<Activity>, p: StudyPrefs, e: Essentials, d: Day)
    requires WellFormed(e)
    ensures var x := PartsOf(classes, activities, p, e, d);
      forall b, c :: b in x.acts && c in Fixed(x) + x.study ==> !Overlaps(b.start, b.end, c)
  {
    var x := PartsOf(classes, activities, p, e, d);
    var acts := PlacedActivities(classes, activities, p, e);
    BaseWeekDay(classes, e, d);
    assert StudyWeek(classes, p, e)[d] == Fixed(x) + x.study;
    forall b | b in x.acts ensures forall c :: c in Fixed(x) + x.study ==> !Overlaps(b.start, b.end, c) {
      assert Placed(d, b) in acts;
    }
  }

  /** All the study sessions of a generated week share one slot: whatever day holds one
      holds them all, at the same start and end. */
  lemma StudySharedSlot(classes: seq<ClassEntry>, activities: seq<Activity>, p: StudyPrefs, e: Essentials, d: Day)
    requires WellFormed(e)
    ensures forall b :: b in Schedule(classes, activities, p, e)[d] && IsStudy(b) ==>
      (StudySlot(classes, p, e).Some? && StudySlot(classes, p, e).value.day == d
       && b.start == StudySlot(classes, p, e).value.start && b.end == StudySlot(classes, p, e).value.end)
  {
    ScheduleDay(classes, activities, p, e, d);
    StudyMembers(Schedule(classes, activities, p, e)[d], PartsOf(classes, activities, p, e, d));
    PartsStudy(classes, activities, p, e, d);
  }

  /** No study session overlaps a class, commute, meal or sleep block of its day. */
  lemma StudyAvoidsFixed(classes: seq<ClassEntry>, activities: seq<Activity>, p: StudyPrefs, e: Essentials, d: Day)
    requires WellFormed(e)
    ensures forall b, c :: b in Schedule(classes, activities, p, e)[d] && IsStudy(b)
                           && c in Schedule(classes, activities, p, e)[d] && IsFixed(c)
                           ==> !Overlaps(b.start, b.end, c)
  {
    ScheduleDay(classes, activities, p, e, d);
    StudyMembers(Schedule(classes, activities, p, e)[d], PartsOf(classes, activities, p, e, d));
    FixedMembers(Schedule(classes, activities, p, e)[d], PartsOf(classes, activities, p, e, d));
    PartsStudyFree(classes, activities, p, e, d);
  }

  /** No activity overlaps any block of its day that is not itself an activity. */
  lemma ActivitiesAvoidSettled(classes: seq<ClassEntry>, activities: seq<Activity>, p: StudyPrefs, e: Essentials, d: Day)
    requires WellFormed(e)
    ensures forall b, c :: b in Schedule(classes, activities, p, e)[d] && IsActivity(b)
                           && c in Schedule(classes, activities, p, e)[d] && !IsActivity(c)
                           ==> !Overlaps(b.start, b.end, c)
  {
    ScheduleDay(classes, activities, p, e, d);
    ActivityMembers(Schedule(classes, activities, p, e)[d], PartsOf(classes, activities, p, e, d));
    SettledMembers(Schedule(classes, activities, p, e)[d], PartsOf(classes, activities, p, e, d));
    PartsActivitiesFree(classes, activities, p, e, d);
  }

  // Week totals

  /** Sorting the days changes no count. */
  lemma SortDaysCount(w: Week, q: Block -> bool)
    ensures WeekCount(SortDays(w), q) == WeekCount(w, q)
  {
    forall d: Day ensures Count(SortDays(w)[d], q) == Count(w[d], q) {
      SortCount(w[d], StartOf, q);
    }
  }

  /** Appending the same blocks to every day adds seven times their count. */
  lemma AddDailyCount(w: Week, bs: seq<Block>, q: Block -> bool)
    ensures WeekCount(AddDaily(w, bs), q) == WeekCount(w, q) + 7 * Count(bs, q)
  {
    forall d: Day ensures Count(AddDaily(w, bs)[d], q) == Count(w[d], q) + Count(bs, q) {
      FilterConcat(w[d], bs, q);
    }
  }

  /** Commutes add nothing to the count of a kind that is not a commute. */
  lemma AddCommutesCount(w: Week, commute: int, q: Block -> bool)
    requires commute <= 1425
    requires forall b :: IsCommute(b) ==> !q(b)
    ensures WeekCount(AddCommutes(w, commute), q) == WeekCount(w, q)
  {
    forall d: Day ensures Count(AddCommutes(w, commute)[d], q) == Count(w[d], q) {
      FilterConcat(w[d], CommuteBlocks(w[d], commute), q);
      CountNone(CommuteBlocks(w[d], commute), q);
    }
  }

  /** Steps 2 to 4 add nothing to the count of a kind other than commute, meal and
      sleep. */
  lemma EssentialsCount(w: Week, e: Essentials, q: Block -> bool)
    requires WellFormed(e)
    requires forall b :: IsCommute(b) || IsMeal(b) || IsSleep(b) ==> !q(b)
    ensures WeekCount(AddDaily(AddDaily(AddCommutes(w, e.commute), MealBlocks(e)), SleepBlocks(e)), q) == WeekCount(w, q)
  {
    var w1 := AddCommutes(w, e.commute);
    AddCommutesCount(w, e.commute, q);
    AddDailyCount(w1, MealBlocks(e), q);
    CountNone(MealBlocks(e), q);
    AddDailyCount(AddDaily(w1, MealBlocks(e)), SleepBlocks(e), q);
    CountNone(SleepBlocks(e), q);
  }

  /** Steps 1 to 4 hold, of any kind other than commute, meal and sleep, just the
      classes. */
  lemma BaseWeekCount(classes: seq<ClassEntry>, e: Essentials, q: Block -> bool)
    requires WellFormed(e)
    requires forall b :: IsCommute(b) || IsMeal(b) || IsSleep(b) ==> !q(b)
    ensures WeekCount(BaseWeek(classes, e), q) == PlacedCount(ClassPlacements(classes), q)
  {
    ClassWeekCount(classes, q);
    EssentialsCount(ClassWeek(classes), e, q);
  }

  lemma ClassWeekCount(classes: seq<ClassEntry>, q: Block -> bool)
    ensures WeekCount(ClassWeek(classes), q) == PlacedCount(ClassPlacements(classes), q)
  {
    PushWeekCount(EmptyWeek, ClassPlacements(classes), q);
    assert WeekCount(EmptyWeek, q) == 0;
  }

  /** Steps 5 to 7 add the sessions and the activities to the count. */
  lemma ScheduleCount(classes: seq<ClassEntry>, activities: seq<Activity>, p: StudyPrefs, e: Essentials, q: Block -> bool)
    requires WellFormed(e)
    ensures WeekCount(Schedule(classes, activities, p, e), q)
         == WeekCount(BaseWeek(classes, e), q) + PlacedCount(Sessions(classes, p, e), q)
            + PlacedCount(PlacedActivities(classes, activities, p, e), q)
  {
    SortDaysCount(FullWeek(classes, activities, p, e), q);
    PushWeekCount(StudyWeek(classes, p, e), PlacedActivities(classes, activities, p, e), q);
    PushWeekCount(BaseWeek(classes, e), Sessions(classes, p, e), q);
  }

  /** The three lists placed onto the week: classes, sessions and activities. */
  lemma PlacedKinds(classes: seq<ClassEntry>, activities: seq<Activity>, p: StudyPrefs, e: Essentials)
    requires WellFormed(e)
    ensures forall x :: x in ClassPlacements(classes) ==> IsClass(x.block)
    ensures forall x :: x in Sessions(classes, p, e) ==> IsStudy(x.block)
    ensures forall x :: x in PlacedActivities(classes, activities, p, e) ==> IsActivity(x.block)
  {
  }

  lemma KindTotals(cp: seq<Placed>, ss: seq<Placed>, pa: seq<Placed>)
    requires forall x :: x in cp ==> IsClass(x.block)
    requires forall x :: x in ss ==> IsStudy(x.block)
    requires forall x :: x in pa ==> IsActivity(x.block)
    ensures PlacedCount(cp, IsClass) + PlacedCount(ss, IsClass) + PlacedCount(pa, IsClass) == |cp|
    ensures PlacedCount(cp, IsStudy) + PlacedCount(ss, IsStudy) + PlacedCount(pa, IsStudy) == |ss|
    ensures PlacedCount(cp, IsActivity) + PlacedCount(ss, IsActivity) + PlacedCount(pa, IsActivity) == |pa|
  {
    PlacedCountAll(cp, IsClass);
    PlacedCountNone(ss, IsClass);
    PlacedCountNone(pa, IsClass);
    PlacedCountNone(cp, IsStudy);
    PlacedCountAll(ss, IsStudy);
    PlacedCountNone(pa, IsStudy);
    PlacedCountNone(cp, IsActivity);
    PlacedCountNone(ss, IsActivity);
    PlacedCountAll(pa, IsActivity);
  }

  /** The week's blocks of a kind laid down by steps 1, 5 or 6 are the placements of
      those steps. */
  lemma StageCounts(classes: seq<ClassEntry>, activities: seq<Activity>, p: StudyPrefs, e: Essentials, q: Block -> bool)
    requires WellFormed(e)
    requires forall b :: IsCommute(b) || IsMeal(b) || IsSleep(b) ==> !q(b)
    ensures WeekCount(Schedule(classes, activities, p, e), q)
         == PlacedCount(ClassPlacements(classes), q) + PlacedCount(Sessions(classes, p, e), q)
            + PlacedCount(PlacedActivities(classes, activities, p, e), q)
  {
    ScheduleCount(classes, activities, p, e, q);
    BaseWeekCount(classes, e, q);
  }

  /** The number of sessions: each distinct course gets `SessionsNeeded` of them when
      the study slot exists, and there are none otherwise. */
  lemma SessionTotal(classes: seq<ClassEntry>, p: StudyPrefs, e: Essentials)
    requires WellFormed(e)
    ensures |Sessions(classes, p, e)|
         == if StudySlot(classes, p, e).Some? then |Courses(classes)| * SessionsNeeded(p) else 0
  {
  }

  /** Of the three placed lists only the class placements hold classes. */
  lemma PlacedClassCount(classes: seq<ClassEntry>, activities: seq<Activity>, p: StudyPrefs, e: Essentials)
    requires WellFormed(e)
    ensures PlacedCount(ClassPlacements(classes), IsClass) + PlacedCount(Sessions(classes, p, e), IsClass)
            + PlacedCount(PlacedActivities(classes, activities, p, e), IsClass) == |classes|
  {
    assert |ClassPlacements(classes)| == |classes|;
    PlacedKinds(classes, activities, p, e);
    KindTotals(ClassPlacements(classes), Sessions(classes, p, e), PlacedActivities(classes, activities, p, e));
  }

  lemma PlacedStudyCount(classes: seq<ClassEntry>, activities: seq<Activity>, p: StudyPrefs, e: Essentials)
    requires WellFormed(e)
    ensures PlacedCount(ClassPlacements(classes), IsStudy) + PlacedCount(Sessions(classes, p, e), IsStudy)
            + PlacedCount(PlacedActivities(classes, activities, p, e), IsStudy) == |Sessions(classes, p, e)|
  {
    PlacedKinds(classes, activities, p, e);
    KindTotals(ClassPlacements(classes), Sessions(classes, p, e), PlacedActivities(classes, activities, p, e));
  }

  lemma PlacedActivityCount(classes: seq<ClassEntry>, activities: seq<Activity>, p: StudyPrefs, e: Essentials)
    requires WellFormed(e)
    ensures PlacedCount(ClassPlacements(classes), IsActivity) + PlacedCount(Sessions(classes, p, e), IsActivity)
            + PlacedCount(PlacedActivities(classes, activities, p, e), IsActivity)
         == |PlacedActivities(classes, activities, p, e)|
  {
    PlacedKinds(classes, activities, p, e);
    KindTotals(ClassPlacements(classes), Sessions(classes, p, e), PlacedActivities(classes, activities, p, e));
  }

  /** The week's class blocks are the classes given, one block each. */
  lemma ClassTotal(classes: seq<ClassEntry>, activities: seq<Activity>, p: StudyPrefs, e: Essentials)
    requires WellFormed(e)
    ensures WeekCount(Schedule(classes, activities, p, e), IsClass) == |classes|
  {
    StageCounts(classes, activities, p, e, IsClass);
    PlacedClassCount(classes, activities, p, e);
  }

  /** The week's study blocks are the sessions generated, one block each. */
  lemma StudyTotal(classes: seq<ClassEntry>, activities: seq<Activity>, p: StudyPrefs, e: Essentials)
    requires WellFormed(e)
    ensures WeekCount(Schedule(classes, activities, p, e), IsStudy) == |Sessions(classes, p, e)|
  {
    StageCounts(classes, activities, p, e, IsStudy);
    PlacedStudyCount(classes, activities, p, e);
  }

  /** The week's activity blocks are the activity placements found, one block each. */
  lemma ActivityTotal(classes: seq<ClassEntry>, activities: seq<Activity>, p: StudyPrefs, e: Essentials)
    requires WellFormed(e)
    ensures WeekCount(Schedule(classes, activities, p, e), IsActivity) == |PlacedActivities(classes, activities, p, e)|
  {
    StageCounts(classes, activities, p, e, IsActivity);
    PlacedActivityCount(classes, activities, p, e);
  }

  /** The statistics returned with the week count what the inputs asked for: every
      class, every session generated and every activity placement found. */
  lemma StatsMatchInputs(classes: seq<ClassEntry>, activities: seq<Activity>, p: StudyPrefs, e: Essentials)
    requires WellFormed(e)
    ensures var g := GenerateSchedule(classes, activities, p, e);
      g.stats.totalClasses == |classes|
      && g.stats.totalStudySessions
         == (if StudySlot(classes, p, e).Some? then |Courses(classes)| * SessionsNeeded(p) else 0)
      && g.stats.totalActivities == |PlacedActivities(classes, activities, p, e)|
  {
    ClassTotal(classes, activities, p, e);
    StudyTotal(classes, activities, p, e);
    ActivityTotal(classes, activities, p, e);
    SessionTotal(classes, p, e);
  }
}

=== FILE: inputs.dfy ===
/** The records the generator is called with: the extracted class list, the study
    preferences, the activities and the life essentials, with times already read as
    minute values (see module Clock for the "HH:MM" text they come from). */
module Inputs {
  import opened Clock
  import opened Week

  /** One class of the timetable. */
  datatype ClassEntry = ClassEntry(
    day: Day, start: Minute, end: Minute, subject: string,
    classType: string, room: string, professor: string, frequency: string)

  /** Study preferences; 0 stands for an unset (falsy) number. */
  datatype StudyPrefs = StudyPrefs(hoursPerCourse: nat, sessionDuration: nat, preferredTimes: seq<string>)

  /** A recurring activity the student wants placed. */
  datatype Activity = Activity(
    name: string, icon: string, duration: nat, frequency: string,
    preferredTimes: seq<string>, flexible: bool, priority: string)

  datatype MealTime = MealTime(time: Minute, duration: nat)

  /** Sleep, meals and the one-way commute in minutes. */
  datatype Essentials = Essentials(
    bedtime: Minute, wakeTime: Minute,
    breakfast: MealTime, lunch: MealTime, dinner: MealTime,
    commute: int)
}

=== FILE: jsobject.dfy ===
/** What looking a string key up in a plain object literal `{ ... }` gives for keys the
    literal does not own. */
module JsObject {

  /** The members every plain object inherits from `Object.prototype`. Looking one of
      these up in an object literal that does not own it gives an inherited function,
      or for `__proto__` the prototype object itself. It never gives `undefined`, so
      `obj[key] || fallback` keeps the inherited value, and `obj[key].push` is not a
      function. */
  const InheritedNames: set<string> := {
    "constructor", "hasOwnProperty", "isPrototypeOf", "propertyIsEnumerable",
    "toString", "toLocaleString", "valueOf", "__proto__",
    "__defineGetter__", "__defineSetter__", "__lookupGetter__", "__lookupSetter__"
  }
}

=== FILE: parser.dfy ===
/** Helpers over the class list read from an uploaded timetable
    (src/utils/scheduleParser.js): validation, "H:MM" normalisation, hours per day,
    the days a timetable uses, and grouping by class type. Fields arrive as text. For
    validation, `formatTime` and the type used for grouping, which only ask whether a
    field is falsy, the empty string also stands for a missing field; elsewhere it is
    the empty text and nothing more. */
module ScheduleParser {
  import opened Seqs
  import opened Clock
  import opened JsObject

  /** One class as parsed from an upload. */
  datatype RawClass = RawClass(day: string, startTime: string, endTime: string, subject: string, classType: string)

  /** What validation is given: nothing at all, or a schedule whose class list may be
      absent. */
  datatype Upload = NoSchedule | Upload(classes: Option<seq<RawClass>>)

  datatype Validation = Valid | Invalid(error: string)

  const NoClassesError: string := "No classes found in schedule"
  const MissingFieldsError: string := "Missing required fields in some classes"

  /** There is a non-empty class list to look at. */
  predicate HasClasses(u: Upload)
  {
    u.Upload? && u.classes.Some? && |u.classes.value| > 0
  }

  /** One of the four required fields is empty. */
  predicate MissingField(c: RawClass)
  {
    c.day == "" || c.startTime == "" || c.endTime == "" || c.subject == ""
  }

  /** `validateSchedule`: an absent or empty class list is reported first; otherwise
      the schedule is invalid exactly when some class lacks a required field. */
  method ValidateSchedule(u: Upload) returns (r: Validation)
    ensures !HasClasses(u) <==> r == Invalid(NoClassesError)
    ensures HasClasses(u) ==>
      (r == Invalid(MissingFieldsError) <==> exists i :: 0 <= i < |u.classes.value| && MissingField(u.classes.value[i]))
    ensures r.Valid? <==> HasClasses(u) && forall i :: 0 <= i < |u.classes.value| ==> !MissingField(u.classes.value[i])
    ensures r.Valid? || r == Invalid(NoClassesError) || r == Invalid(MissingFieldsError)
  {
    if !HasClasses(u) {
      return Invalid(NoClassesError);
    }
    var cs := u.classes.value;
    var i := 0;
    while i < |cs|
      invariant 0 <= i <= |cs|
      invariant forall j :: 0 <= j < i ==> !MissingField(cs[j])
    {
      if MissingField(cs[i]) {
        return Invalid(MissingFieldsError);
      }
      i := i + 1;
    }
    return Valid;
  }

  // formatTime

  /** The text before the first colon: the first piece of `s.split(':')`. */
  function BeforeColon(s: string): (r: string)
    ensures ':' !in r
    ensures |r| <= |s| && r == s[..|r|]
    ensures |r| < |s| ==> s[|r|] == ':'
  {
    if s == [] || s[0] == ':' then [] else [s[0]] + BeforeColon(s[1..])
  }

  /** The second piece of `s.split(':')`, if there is one. */
  function SecondPiece(s: string): (r: Option<string>)
    ensures r.Some? ==> ':' !in r.value
  {
    var h := BeforeColon(s);
    if |h| == |s| then None else Some(BeforeColon(s[|h| + 1..]))
  }

  /** `padStart(2, '0')`. */
  function PadStart2(s: string): (r: string)
    ensures |r| == if |s| < 2 then 2 else |s|
    ensures |s| >= 2 ==> r == s
    ensures r[|r| - |s|..] == s
    ensures forall i :: 0 <= i < |r| - |s| ==> r[i] == '0'
    ensures forall x :: x in r ==> x == '0' || x in s
  {
    if |s| == 0 then "00" else if |s| == 1 then "0" + s else s
  }

  /** `formatTime`: the empty string stays empty; otherwise the hour piece padded to
      two characters, a colon, and the minute piece or "00" when that is missing or
      empty. */
  function FormatTime(t: string): (r: string)
    ensures r == "" <==> t == ""
    ensures t != "" ==> Normalised(r) && BeforeColon(r) == PadStart2(BeforeColon(t))
    ensures t != "" ==> SecondPiece(r) == Some(if SecondPiece(t).None? || SecondPiece(t).value == "" then "00" else SecondPiece(t).value)
  {
    if t == "" then ""
    else
      var m := SecondPiece(t);
      var h := PadStart2(BeforeColon(t));
      var mm := if m.None? || m.value == "" then "00" else m.value;
      ColonSplit(h, mm);
      NoColonWhole(mm);
      h + ":" + mm
  }

  /** What `FormatTime` produces from a non-empty text: a colon-free hour part of at
      least two characters, a colon, and a non-empty colon-free minute part. */
  predicate Normalised(r: string)
  {
    var h := BeforeColon(r);
    |h| >= 2 && |h| < |r| && var m := r[|h| + 1..]; m != "" && ':' !in m
  }

  /** Splitting `h + ":" + m` at its first colon gives `h` back when `h` has none. */
  lemma {:induction false} ColonSplit(h: string, m: string)
    requires ':' !in h
    ensures BeforeColon(h + ":" + m) == h
    ensures (h + ":" + m)[|h| + 1..] == m
  {
    if h != [] {
      assert (h + ":" + m)[1..] == h[1..] + ":" + m;
      assert ':' !in h[1..] by {
        assert forall x :: x in h[1..] ==> x in h;
      }
      ColonSplit(h[1..], m);
    } else {
      assert (h + ":" + m)[0] == ':';
    }
  }

  /** Normalising twice is normalising once. */
  lemma FormatTimeIdempotent(t: string)
    ensures FormatTime(FormatTime(t)) == FormatTime(t)
  {
    if t != "" {
      NormalisedFixed(FormatTime(t));
    }
  }

  /** A normalised text is left as it is. */
  lemma NormalisedFixed(r: string)
    requires Normalised(r)
    ensures FormatTime(r) == r
  {
    var h := BeforeColon(r);
    var m := r[|h| + 1..];
    assert SecondPiece(r) == Some(BeforeColon(m));
    NoColonWhole(m);
    assert r == h + ":" + m;
  }

  lemma {:induction false} NoColonWhole(s: string)
    requires ':' !in s
    ensures BeforeColon(s) == s
  {
    if s != [] {
      assert ':' !in s[1..] by {
        assert forall x :: x in s[1..] ==> x in s;
      }
      NoColonWhole(s[1..]);
      assert s == [s[0]] + s[1..];
    }
  }

  /** A well-formed "HH:MM" is already normalised. */
  lemma FormatTimeKeepsClockText(s: string)
    requires IsTimeShape(s)
    ensures FormatTime(s) == s
  {
    assert s == s[..2] + ":" + s[3..];
    assert ':' !in s[..2];
    ColonSplit(s[..2], s[3..]);
    assert ':' !in s[3..];
    NormalisedFixed(s);
  }

  /** An hour with one digit gets its leading zero. */
  lemma FormatTimePadsHour()
    ensures FormatTime("9:30") == "09:30"
  {
    assert "9:30" == "9" + ":" + "30";
    ColonSplit("9", "30");
    NoColonWhole("30");
  }

  /** A missing minute piece becomes "00". */
  lemma FormatTimeAddsMinutes()
    ensures FormatTime("14") == "14:00"
  {
    NoColonWhole("14");
    assert SecondPiece("14") == None;
    assert PadStart2(BeforeColon("14")) == "14";
  }

  /** So does an empty one. */
  lemma FormatTimeEmptyMinutes()
    ensures FormatTime("7:") == "07:00"
  {
    assert "7:" == "7" + ":" + "";
    ColonSplit("7", "");
  }

  // calculateDayHours

  /** `parseInt(s)` with no radix, for a text without leading white space: an optional
      sign, then hexadecimal digits after a "0x" or "0X" prefix, decimal digits
      otherwise. The reading stops at the first character that is not a digit; none
      stands for NaN, which is the result when no digit comes first. */
  function ParseLeadingInt(s: string): (r: Option<int>)
    ensures var u := Unsigned(s);
      r.None? <==> if HexPrefixed(u) then |u| == 2 || !IsHexDigit(u[2]) else u == [] || !IsDigit(u[0])
    ensures s != [] && IsDigit(s[0]) && !HexPrefixed(s) ==> r == Some(DigitsValue(s[..DigitRun(s)]))
    ensures r.Some? && s[0] == '-' ==> r.value <= 0
    ensures r.Some? && s[0] != '-' ==> r.value >= 0
    ensures r.Some? ==>
      var u := Unsigned(s);
      var magnitude := if HexPrefixed(u) then HexValue(u[2..][..HexRun(u[2..])]) else DigitsValue(u[..DigitRun(u)]);
      r.value == if s[0] == '-' then -magnitude else magnitude
  {
    var m := ParseMagnitude(Unsigned(s));
    if m.None? then None
    else if s[0] == '-' then Some(0 - m.value as int)
    else Some(m.value)
  }

  /** A leading "-" negates the reading of the rest and a leading "+" keeps it; a
      second sign leaves no digit in front, so the result is NaN. */
  lemma ParseLeadingIntSign(u: string)
    ensures u == [] || (u[0] != '-' && u[0] != '+') ==>
      && ParseLeadingInt("+" + u) == ParseLeadingInt(u)
      && ParseLeadingInt("-" + u) == (if ParseLeadingInt(u).None? then None else Some(-ParseLeadingInt(u).value))
    ensures u != [] && (u[0] == '-' || u[0] == '+') ==>
      ParseLeadingInt("+" + u).None? && ParseLeadingInt("-" + u).None?
  {
    assert ("+" + u)[1..] == u;
    assert ("-" + u)[1..] == u;
  }

  /** The text after a leading sign, if there is one. */
  function Unsigned(s: string): string
  {
    if s != [] && (s[0] == '-' || s[0] == '+') then s[1..] else s
  }

  /** "0x" or "0X" in front: `parseInt` then reads hexadecimal. */
  predicate HexPrefixed(s: string)
  {
    |s| >= 2 && s[0] == '0' && (s[1] == 'x' || s[1] == 'X')
  }

  /** The value of the digits `parseInt` reads from an unsigned text. */
  function ParseMagnitude(u: string): Option<nat>
  {
    if HexPrefixed(u) then
      var h := u[2..];
      if h == [] || !IsHexDigit(h[0]) then None else Some(HexValue(h[..HexRun(h)]))
    else if u == [] || !IsDigit(u[0]) then None
    else Some(DigitsValue(u[..DigitRun(u)]))
  }

  predicate IsHexDigit(c: char)
  {
    IsDigit(c) || 'a' <= c <= 'f' || 'A' <= c <= 'F'
  }

  function HexDigitValue(c: char): (v: nat)
    requires IsHexDigit(c)
    ensures v < 16
  {
    if IsDigit(c) then DigitValue(c)
    else if 'a' <= c <= 'f' then (c as int) - ('a' as int) + 10
    else (c as int) - ('A' as int) + 10
  }

  /** Length of the run of hexadecimal digits at the front of `s`. */
  function HexRun(s: string): (n: nat)
    ensures n <= |s|
    ensures forall i :: 0 <= i < n ==> IsHexDigit(s[i])
    ensures n < |s| ==> !IsHexDigit(s[n])
  {
    if s == [] || !IsHexDigit(s[0]) then 0 else 1 + HexRun(s[1..])
  }

  /** The number written by a string of hexadecimal digits. */
  function HexValue(s: string): nat
    requires forall i :: 0 <= i < |s| ==> IsHexDigit(s[i])
  {
    if s == [] then 0 else 16 * HexValue(s[..|s| - 1]) + HexDigitValue(s[|s| - 1])
  }

  /** Decimal, hexadecimal and signed readings, and the prefix with no digit after it. */
  lemma ParseLeadingIntExamples()
    ensures ParseLeadingInt("0x1A") == Some(26)
    ensures ParseLeadingInt("0x") == None
    ensures ParseLeadingInt("-7") == Some(-7)
    ensures ParseLeadingInt("08") == Some(8)
  {
    assert "0x1A"[2..] == "1A";
    assert HexRun("1A"[1..]) == 1;
    assert HexRun("1A") == 2;
    assert "1A"[..2] == "1A";
    assert "1A"[..1] == "1";
    assert "1"[..0] == [];
    assert HexValue("1") == 1;
    assert HexValue("1A") == 26;
    assert DigitRun("7"[1..]) == 0;
    assert "7"[..1] == "7";
    assert "08"[1..][1..] == [];
    assert DigitRun("08") == 2;
    assert "08"[..2] == "08";
    assert "08"[..1] == "0";
  }

  /** Length of the run of digits at the front of `s`. */
  function DigitRun(s: string): (n: nat)
    ensures n <= |s|
    ensures forall i :: 0 <= i < n ==> IsDigit(s[i])
    ensures n < |s| ==> !IsDigit(s[n])
  {
    if s == [] || !IsDigit(s[0]) then 0 else 1 + DigitRun(s[1..])
  }

  /** The number written by a string of decimal digits. */
  function DigitsValue(s: string): nat
    requires forall i :: 0 <= i < |s| ==> IsDigit(s[i])
  {
    if s == [] then 0 else 10 * DigitsValue(s[..|s| - 1]) + DigitValue(s[|s| - 1])
  }

  /** `parseInt(t.split(':')[0])`: the hour number a time text starts with. */
  function HourOf(t: string): Option<int>
  {
    ParseLeadingInt(BeforeColon(t))
  }

  /** For a well-formed "HH:MM" the parsed hour is its hour field. */
  lemma HourOfClockText(s: string)
    requires IsTimeShape(s)
    ensures HourOf(s) == Some(HourField(s))
  {
    assert s == s[..2] + ":" + s[3..];
    assert ':' !in s[..2];
    ColonSplit(s[..2], s[3..]);
    var h := s[..2];
    assert DigitRun(h[2..]) == 0;
    assert DigitRun(h[1..]) == 1 by {
      assert h[1..][1..] == h[2..];
    }
    assert DigitRun(h) == 2;
    assert h[..2] == h;
    assert h[..1] == [s[0]];
    assert DigitsValue(h[..1]) == DigitValue(s[0]) by {
      assert h[..1][..0] == [];
    }
  }

  /** One class's contribution: whole end hour minus whole start hour, NaN (none) if
      either does not parse. */
  function ClassHours(c: RawClass): Option<int>
  {
    var s := HourOf(c.startTime);
    var e := HourOf(c.endTime);
    if s.Some? && e.Some? then Some(e.value - s.value) else None
  }

  /** Addition where NaN absorbs everything. */
  function Plus(a: Option<int>, b: Option<int>): (r: Option<int>)
    ensures r.Some? <==> a.Some? && b.Some?
  {
    if a.Some? && b.Some? then Some(a.value + b.value) else None
  }

  /** `calculateDayHours`: the sum over the classes of `day` of their whole-hour
      spans; none stands for NaN. */
  function CalculateDayHours(classes: seq<RawClass>, day: string): (r: Option<int>)
    ensures r.None? <==> exists i :: 0 <= i < |classes| && classes[i].day == day && ClassHours(classes[i]).None?
  {
    if classes == [] then Some(0)
    else
      var rest := CalculateDayHours(classes[1..], day);
      assert forall i :: 0 < i < |classes| ==> classes[i] == classes[1..][i - 1];
      if classes[0].day == day then Plus(ClassHours(classes[0]), rest) else rest
  }

  /** Hours add up over a split of the class list. */
  lemma {:induction false} DayHoursConcat(a: seq<RawClass>, b: seq<RawClass>, day: string)
    ensures CalculateDayHours(a + b, day) == Plus(CalculateDayHours(a, day), CalculateDayHours(b, day))
  {
    if a == [] {
      assert a + b == b;
    } else {
      assert (a + b)[1..] == a[1..] + b;
      DayHoursConcat(a[1..], b, day);
    }
  }

  /** Classes of other days change nothing. */
  lemma {:induction false} OtherDaysIgnored(a: seq<RawClass>, b: seq<RawClass>, day: string)
    requires forall c :: c in b ==> c.day != day
    ensures CalculateDayHours(a + b, day) == CalculateDayHours(a, day)
  {
    DayHoursConcat(a, b, day);
    NoClassesOfDay(b, day);
  }

  lemma {:induction false} NoClassesOfDay(b: seq<RawClass>, day: string)
    requires forall c :: c in b ==> c.day != day
    ensures CalculateDayHours(b, day) == Some(0)
  {
    if b != [] {
      assert forall c :: c in b[1..] ==> c in b;
      NoClassesOfDay(b[1..], day);
    }
  }

  /** With well-formed times, the hours are the sum of end-hour minus start-hour fields
      over the classes of that day, and a class ending within the hour it starts adds
      nothing. */
  lemma {:induction false} DayHoursOfClockTexts(classes: seq<RawClass>, day: string)
    requires forall c :: c in classes ==> IsTimeShape(c.startTime) && IsTimeShape(c.endTime)
    ensures CalculateDayHours(classes, day) == Some(FieldHours(classes, day))
  {
    if classes != [] {
      assert forall c :: c in classes[1..] ==> c in classes;
      DayHoursOfClockTexts(classes[1..], day);
      ClassHoursOfClockText(classes[0]);
    }
  }

  lemma ClassHoursOfClockText(c: RawClass)
    requires IsTimeShape(c.startTime) && IsTimeShape(c.endTime)
    ensures ClassHours(c) == Some(HourField(c.endTime) - HourField(c.startTime))
  {
    HourOfClockText(c.startTime);
    HourOfClockText(c.endTime);
  }

  /** The reference sum over hour fields, for well-formed times. */
  function FieldHours(classes: seq<RawClass>, day: string): int
    requires forall c :: c in classes ==> IsTimeShape(c.startTime) && IsTimeShape(c.endTime)
  {
    if classes == [] then 0
    else
      assert forall c :: c in classes[1..] ==> c in classes;
      var rest := FieldHours(classes[1..], day);
      if classes[0].day == day then HourField(classes[0].endTime) - HourField(classes[0].startTime) + rest
      else rest
  }

  // getScheduleDays

  const DayOrder: seq<string> := ["Monday", "Tuesday", "Wednesday", "Thursday", "Friday"]

  /** `dayOrder.indexOf(d)`: the weekday position, -1 for any other text. */
  function DayOrderIndex(d: string): (r: int)
    ensures -1 <= r < |DayOrder|
    ensures r >= 0 ==> DayOrder[r] == d
    ensures r == -1 <==> d !in DayOrder
  {
    if d == "Monday" then 0 else if d == "Tuesday" then 1 else if d == "Wednesday" then 2
    else if d == "Thursday" then 3 else if d == "Friday" then 4 else -1
  }

  function DaysOf(classes: seq<RawClass>): (r: seq<string>)
    ensures |r| == |classes|
    ensures forall i :: 0 <= i < |r| ==> r[i] == classes[i].day
  {
    if classes == [] then [] else [classes[0].day] + DaysOf(classes[1..])
  }

  /** Some class is held on `d`. */
  predicate UsesDay(classes: seq<RawClass>, d: string)
  {
    exists i :: 0 <= i < |classes| && classes[i].day == d
  }

  /** `getScheduleDays`: each day once, weekdays in order, any other day text first
      in the order it appears. */
  function GetScheduleDays(classes: seq<RawClass>): (r: seq<string>)
    ensures Distinct(r)
    ensures forall d :: d in r <==> UsesDay(classes, d)
    ensures SortedBy(r, DayOrderIndex)
  {
    var days := Dedup(DaysOf(classes));
    SortDistinct(days, DayOrderIndex);
    SortMembers(days, DayOrderIndex);
    DaysOfMembers(classes);
    SortBy(days, DayOrderIndex)
  }

  lemma DaysOfMembers(classes: seq<RawClass>)
    ensures forall d :: d in DaysOf(classes) <==> UsesDay(classes, d)
  {
    forall d | UsesDay(classes, d) ensures d in DaysOf(classes) {
      var i :| 0 <= i < |classes| && classes[i].day == d;
      assert DaysOf(classes)[i] == d;
    }
  }

  /** Every weekday comes after every other day text: once a weekday has appeared, all
      later days are weekdays. */
  lemma UnknownDaysFirst(classes: seq<RawClass>)
    ensures forall i, j :: 0 <= i < j < |GetScheduleDays(classes)| && GetScheduleDays(classes)[i] in DayOrder ==>
      GetScheduleDays(classes)[j] in DayOrder
  {
    var r := GetScheduleDays(classes);
    forall i, j | 0 <= i < j < |r| && r[i] in DayOrder ensures r[j] in DayOrder {
      assert DayOrderIndex(r[i]) <= DayOrderIndex(r[j]);
    }
  }

  /** Day texts that are not weekdays keep the order in which they first appear. */
  lemma UnknownDaysKeepOrder(classes: seq<RawClass>)
    ensures WithKey(GetScheduleDays(classes), DayOrderIndex, -1) == WithKey(Dedup(DaysOf(classes)), DayOrderIndex, -1)
  {
    SortStable(Dedup(DaysOf(classes)), DayOrderIndex, -1);
  }

  /** Strictly increasing in weekday index. */
  predicate Ascending(s: seq<string>)
  {
    forall i, j :: 0 <= i < j < |s| ==> DayOrderIndex(s[i]) < DayOrderIndex(s[j])
  }

  /** When every day is a weekday the result is the week order restricted to the days
      used. */
  lemma KnownDaysInWeekOrder(classes: seq<RawClass>)
    requires forall i :: 0 <= i < |classes| ==> classes[i].day in DayOrder
    ensures GetScheduleDays(classes) == Filter(DayOrder, d => UsesDay(classes, d))
  {
    var r := GetScheduleDays(classes);
    var used := d => UsesDay(classes, d);
    var f := Filter(DayOrder, used);
    StrictFromDistinct(r);
    WeekOrderAscending();
    FilterAscending(DayOrder, used);
    AscendingUnique(r, f);
  }

  lemma WeekOrderAscending()
    ensures Ascending(DayOrder)
  {
  }

  /** Filtering keeps a list ascending. */
  lemma {:induction false} FilterAscending(s: seq<string>, used: string -> bool)
    requires Ascending(s)
    ensures Ascending(Filter(s, used))
  {
    if s != [] {
      var t := Filter(s[1..], used);
      FilterAscending(s[1..], used);
      forall d | d in t ensures DayOrderIndex(s[0]) < DayOrderIndex(d) {
        TailMembers(s, d);
        HeadLeast(s, d);
      }
      AscendingCons(s[0], t);
      assert Filter(s, used) == (if used(s[0]) then [s[0]] else []) + t;
    }
  }

  lemma AscendingCons(a: string, t: seq<string>)
    requires Ascending(t)
    requires forall d :: d in t ==> DayOrderIndex(a) < DayOrderIndex(d)
    ensures Ascending([a] + t)
  {
    var r := [a] + t;
    forall i, j | 0 <= i < j < |r| ensures DayOrderIndex(r[i]) < DayOrderIndex(r[j]) {
      if i == 0 {
        assert r[j] == t[j - 1];
        assert r[j] in t;
      } else {
        assert r[i] == t[i - 1] && r[j] == t[j - 1];
      }
    }
  }

  /** The first element of an ascending list has the least index, and is the only one
      with that index. */
  lemma HeadLeast(s: seq<string>, d: string)
    requires Ascending(s) && d in s
    ensures DayOrderIndex(s[0]) <= DayOrderIndex(d)
    ensures DayOrderIndex(s[0]) == DayOrderIndex(d) ==> d == s[0]
  {
    var k :| 0 <= k < |s| && s[k] == d;
    if k > 0 {
      assert DayOrderIndex(s[0]) < DayOrderIndex(s[k]);
    }
  }

  lemma TailMembers(s: seq<string>, d: string)
    requires Ascending(s) && s != []
    ensures d in s[1..] <==> d in s && d != s[0]
  {
    if d in s[1..] {
      var k :| 1 <= k < |s| && s[k] == d;
      assert DayOrderIndex(s[0]) < DayOrderIndex(s[k]);
    }
    if d in s && d != s[0] {
      var k :| 0 <= k < |s| && s[k] == d;
      assert s[1..][k - 1] == d;
    }
  }

  /** Two ascending lists with the same members are the same list. */
  lemma {:induction false} AscendingUnique(a: seq<string>, b: seq<string>)
    requires Ascending(a) && Ascending(b)
    requires forall d :: d in a <==> d in b
    ensures a == b
    decreases |a|
  {
    assert b != [] ==> b[0] in a;
    if a != [] {
      assert a[0] in b;
      HeadLeast(a, b[0]);
      HeadLeast(b, a[0]);
      forall d ensures d in a[1..] <==> d in b[1..] {
        TailMembers(a, d);
        TailMembers(b, d);
      }
      AscendingUnique(a[1..], b[1..]);
      assert a == [a[0]] + a[1..];
      assert b == [b[0]] + b[1..];
    }
  }

  /** Distinct weekdays sorted by index are strictly ascending. */
  lemma StrictFromDistinct(a: seq<string>)
    requires forall d :: d in a ==> d in DayOrder
    requires Distinct(a) && SortedBy(a, DayOrderIndex)
    ensures Ascending(a)
  {
    forall i, j | 0 <= i < j < |a| ensures DayOrderIndex(a[i]) < DayOrderIndex(a[j]) {
      assert a[i] in a && a[j] in a;
      assert DayOrder[DayOrderIndex(a[i])] == a[i];
      assert DayOrder[DayOrderIndex(a[j])] == a[j];
    }
  }

  // groupByType

  /** The group a class joins: its type, or "Other" when the type is empty. */
  function TypeKey(c: RawClass): string
  {
    if c.classType == "" then "Other" else c.classType
  }

  datatype Group = Group(key: string, members: seq<RawClass>)

  function Keys(groups: seq<Group>): (r: seq<string>)
    ensures |r| == |groups|
    ensures forall i :: 0 <= i < |r| ==> r[i] == groups[i].key
  {
    if groups == [] then [] else [groups[0].key] + Keys(groups[1..])
  }

  /** The classes of type key `k`, in input order: the reference for each group. */
  function OfType(classes: seq<RawClass>, k: string): seq<RawClass>
  {
    if classes == [] then []
    else (if TypeKey(classes[0]) == k then [classes[0]] else []) + OfType(classes[1..], k)
  }

  /** The keys in order of first appearance. */
  function KeyOrder(classes: seq<RawClass>): seq<string>
  {
    if classes == [] then []
    else
      var ks := KeyOrder(classes[..|classes| - 1]);
      var k := TypeKey(classes[|classes| - 1]);
      if k in ks then ks else ks + [k]
  }

  /** The position of the group with key `k`, if there is one. */
  function FindKey(groups: seq<Group>, k: string): (r: Option<nat>)
    ensures r.Some? ==> r.value < |groups| && groups[r.value].key == k
    ensures r.Some? ==> forall j :: 0 <= j < r.value ==> groups[j].key != k
    ensures r.None? ==> forall j :: 0 <= j < |groups| ==> groups[j].key != k
  {
    if groups == [] then None
    else if groups[0].key == k then Some(0)
    else
      var t := FindKey(groups[1..], k);
      if t.Some? then Some(t.value + 1) else None
  }

  /** One step of the reduce: push `c` onto the group of its key, opening that group at
      the end when the key is new. */
  function AddToGroup(groups: seq<Group>, c: RawClass): seq<Group>
  {
    var k := TypeKey(c);
    var i := FindKey(groups, k);
    if i.Some? then groups[i.value := Group(k, groups[i.value].members + [c])]
    else groups + [Group(k, [c])]
  }

  /** The reduce of `groupByType` on keys an object literal does not inherit: the groups
      in order of first appearance of their key. */
  function GroupReduce(classes: seq<RawClass>): seq<Group>
  {
    if classes == [] then [] else AddToGroup(GroupReduce(classes[..|classes| - 1]), classes[|classes| - 1])
  }

  /** What `groupByType` gives back: the groups, or the TypeError it throws. */
  datatype Grouping = Grouped(groups: seq<Group>) | TypeError

  /** `groupByType`: the reduce over an object literal. A key naming an inherited
      member finds that member in `acc[type]`, which is truthy and has no `push`, so
      the call throws as soon as such a class is reached. Otherwise the groups are those
      of the reduce: each key once, in order of first appearance, each group holding
      exactly the classes of its key in input order, and every class in one group. */
  function GroupByType(classes: seq<RawClass>): (r: Grouping)
    ensures r.TypeError? <==> exists i :: 0 <= i < |classes| && TypeKey(classes[i]) in InheritedNames
    ensures r.Grouped? ==> r.groups == GroupReduce(classes)
  {
    if classes == [] then Grouped([])
    else
      var init := classes[..|classes| - 1];
      var c := classes[|classes| - 1];
      var acc := GroupByType(init);
      InheritedPrefix(classes);
      if acc.TypeError? || TypeKey(c) in InheritedNames then TypeError
      else Grouped(AddToGroup(acc.groups, c))
  }

  lemma InheritedPrefix(classes: seq<RawClass>)
    requires classes != []
    ensures var init := classes[..|classes| - 1];
      (exists i :: 0 <= i < |classes| && TypeKey(classes[i]) in InheritedNames)
      <==> (exists i :: 0 <= i < |init| && TypeKey(init[i]) in InheritedNames)
           || TypeKey(classes[|classes| - 1]) in InheritedNames
  {
    var init := classes[..|classes| - 1];
    if exists i :: 0 <= i < |classes| && TypeKey(classes[i]) in InheritedNames {
      var i :| 0 <= i < |classes| && TypeKey(classes[i]) in InheritedNames;
      if i < |init| {
        assert init[i] == classes[i];
      }
    }
    if exists i :: 0 <= i < |init| && TypeKey(init[i]) in InheritedNames {
      var i :| 0 <= i < |init| && TypeKey(init[i]) in InheritedNames;
      assert classes[i] == init[i];
    }
  }

  /** `groupByType` throws exactly when some class's key is an inherited name; otherwise
      each key appears once, in order of first appearance, each group holds exactly the
      classes of its key in input order, and every class is in one group. */
  lemma GroupByTypeMeaning(classes: seq<RawClass>)
    ensures GroupByType(classes).TypeError? <==> exists i :: 0 <= i < |classes| && TypeKey(classes[i]) in InheritedNames
    ensures GroupByType(classes).Grouped? ==>
      GroupsOf(GroupByType(classes).groups, classes) && TotalSize(GroupByType(classes).groups) == |classes|
  {
    GroupReduceMeaning(classes);
    GroupReduceSizes(classes);
  }

  /** Keys are kept and members match the reference. */
  predicate GroupsOf(groups: seq<Group>, classes: seq<RawClass>)
  {
    Keys(groups) == KeyOrder(classes)
    && forall i :: 0 <= i < |groups| ==> groups[i].members == OfType(classes, groups[i].key)
  }

  /** Every class is in the group of its key, the groups keep input order, and the keys
      are each key once, in order of first appearance. */
  lemma {:induction false} GroupReduceMeaning(classes: seq<RawClass>)
    ensures Keys(GroupReduce(classes)) == KeyOrder(classes)
    ensures forall i :: 0 <= i < |GroupReduce(classes)| ==>
      GroupReduce(classes)[i].members == OfType(classes, GroupReduce(classes)[i].key)
  {
    if classes != [] {
      var init := classes[..|classes| - 1];
      var c := classes[|classes| - 1];
      GroupReduceMeaning(init);
      assert classes == init + [c];
      KeyOrderMembers(init);
      GroupStep(GroupReduce(init), init, c);
    }
  }

  /** Adding one class to the groups of `init` gives the groups of `init + [c]`. */
  lemma GroupStep(g: seq<Group>, init: seq<RawClass>, c: RawClass)
    requires GroupsOf(g, init) && Distinct(KeyOrder(init))
    requires forall k :: k in KeyOrder(init) <==> exists i :: 0 <= i < |init| && TypeKey(init[i]) == k
    ensures GroupsOf(AddToGroup(g, c), init + [c])
  {
    var classes := init + [c];
    assert classes[..|classes| - 1] == init;
    forall j | 0 <= j < |g| ensures OfType(classes, g[j].key) == g[j].members + (if g[j].key == TypeKey(c) then [c] else []) {
      OfTypeSnoc(init, c, g[j].key);
    }
    if FindKey(g, TypeKey(c)).Some? {
      GroupStepFound(g, init, c, FindKey(g, TypeKey(c)).value);
    } else {
      GroupStepNew(g, init, c);
    }
  }

  lemma GroupStepFound(g: seq<Group>, init: seq<RawClass>, c: RawClass, i: nat)
    requires Keys(g) == KeyOrder(init) && Distinct(Keys(g))
    requires i < |g| && g[i].key == TypeKey(c)
    requires forall j :: 0 <= j < |g| ==>
      OfType(init + [c], g[j].key) == g[j].members + (if g[j].key == TypeKey(c) then [c] else [])
    ensures GroupsOf(g[i := Group(TypeKey(c), g[i].members + [c])], init + [c])
  {
    var classes := init + [c];
    var r := g[i := Group(TypeKey(c), g[i].members + [c])];
    KeysUpdate(g, i, Group(TypeKey(c), g[i].members + [c]));
    KeyOrderSeen(init, c, i);
    forall j | 0 <= j < |r| ensures r[j].members == OfType(classes, r[j].key) {
      if j != i {
        assert Keys(g)[j] != Keys(g)[i];
      }
    }
  }

  /** Replacing a group by one with the same key keeps the keys. */
  lemma KeysUpdate(g: seq<Group>, i: nat, x: Group)
    requires i < |g| && x.key == g[i].key
    ensures Keys(g[i := x]) == Keys(g)
  {
    assert forall j :: 0 <= j < |g| ==> Keys(g[i := x])[j] == Keys(g)[j];
  }

  /** A key already seen does not change the key order. */
  lemma KeyOrderSeen(init: seq<RawClass>, c: RawClass, i: nat)
    requires i < |KeyOrder(init)| && KeyOrder(init)[i] == TypeKey(c)
    ensures KeyOrder(init + [c]) == KeyOrder(init)
  {
    var classes := init + [c];
    assert classes[..|classes| - 1] == init;
  }

  lemma GroupStepNew(g: seq<Group>, init: seq<RawClass>, c: RawClass)
    requires Keys(g) == KeyOrder(init) && TypeKey(c) !in Keys(g)
    requires forall k :: k in KeyOrder(init) <==> exists i :: 0 <= i < |init| && TypeKey(init[i]) == k
    requires forall j :: 0 <= j < |g| ==> g[j].members == OfType(init + [c], g[j].key)
    ensures GroupsOf(g + [Group(TypeKey(c), [c])], init + [c])
  {
    var classes := init + [c];
    assert classes[..|classes| - 1] == init;
    assert Keys(g + [Group(TypeKey(c), [c])]) == Keys(g) + [TypeKey(c)];
    OfTypeSnoc(init, c, TypeKey(c));
    OfTypeEmpty(init, TypeKey(c));
  }

  lemma {:induction false} OfTypeSnoc(init: seq<RawClass>, c: RawClass, k: string)
    ensures OfType(init + [c], k) == OfType(init, k) + (if TypeKey(c) == k then [c] else [])
  {
    var whole := init + [c];
    if init == [] {
      assert whole == [c];
      assert whole[1..] == [];
    } else {
      assert whole[0] == init[0];
      assert whole[1..] == init[1..] + [c];
      OfTypeSnoc(init[1..], c, k);
      var head := if TypeKey(init[0]) == k then [init[0]] else [];
      assert OfType(whole, k) == head + OfType(init[1..] + [c], k);
      assert OfType(init, k) == head + OfType(init[1..], k);
    }
  }

  /** A key that never appeared selects no class. */
  lemma KeyOrderMissing(init: seq<RawClass>, c: RawClass)
    requires TypeKey(c) !in KeyOrder(init)
    ensures OfType(init, TypeKey(c)) == []
  {
    KeyOrderMembers(init);
    OfTypeEmpty(init, TypeKey(c));
  }

  lemma {:induction false} OfTypeEmpty(s: seq<RawClass>, k: string)
    requires forall i :: 0 <= i < |s| ==> TypeKey(s[i]) != k
    ensures OfType(s, k) == []
  {
    if s != [] {
      OfTypeEmpty(s[1..], k);
    }
  }

  /** The keys are exactly the keys of the classes, each once. */
  lemma {:induction false} KeyOrderMembers(classes: seq<RawClass>)
    ensures forall k :: k in KeyOrder(classes) <==> exists i :: 0 <= i < |classes| && TypeKey(classes[i]) == k
    ensures Distinct(KeyOrder(classes))
  {
    if classes != [] {
      var init := classes[..|classes| - 1];
      KeyOrderMembers(init);
      forall k ensures k in KeyOrder(classes) <==> exists i :: 0 <= i < |classes| && TypeKey(classes[i]) == k {
        if exists i :: 0 <= i < |classes| && TypeKey(classes[i]) == k {
          var i :| 0 <= i < |classes| && TypeKey(classes[i]) == k;
          if i < |init| {
            assert init[i] == classes[i];
          }
        }
        if k in KeyOrder(init) {
          var i :| 0 <= i < |init| && TypeKey(init[i]) == k;
          assert classes[i] == init[i];
        }
      }
    }
  }

  /** Total number of classes over all groups. */
  function TotalSize(groups: seq<Group>): nat
  {
    if groups == [] then 0 else |groups[0].members| + TotalSize(groups[1..])
  }

  lemma {:induction false} TotalSizeUpdate(groups: seq<Group>, i: nat, x: Group)
    requires i < |groups|
    ensures TotalSize(groups[i := x]) + |groups[i].members| == TotalSize(groups) + |x.members|
  {
    if i > 0 {
      assert groups[i := x][1..] == groups[1..][i - 1 := x];
      TotalSizeUpdate(groups[1..], i - 1, x);
    }
  }

  lemma {:induction false} TotalSizeAppend(groups: seq<Group>, x: Group)
    ensures TotalSize(groups + [x]) == TotalSize(groups) + |x.members|
  {
    if groups != [] {
      assert (groups + [x])[1..] == groups[1..] + [x];
      TotalSizeAppend(groups[1..], x);
    }
  }

  /** Every class is in exactly one group: the sizes sum to the input length. */
  lemma {:induction false} GroupReduceSizes(classes: seq<RawClass>)
    ensures TotalSize(GroupReduce(classes)) == |classes|
  {
    if classes != [] {
      var g := GroupReduce(classes[..|classes| - 1]);
      var c := classes[|classes| - 1];
      GroupReduceSizes(classes[..|classes| - 1]);
      var i := FindKey(g, TypeKey(c));
      if i.Some? {
        TotalSizeUpdate(g, i.value, Group(TypeKey(c), g[i.value].members + [c]));
      } else {
        TotalSizeAppend(g, Group(TypeKey(c), [c]));
      }
    }
  }
}

=== FILE: preferences.dfy ===
/** Turning qualitative preferences into concrete candidates: time-of-day buckets into
    start hours, and an activity's frequency label into the days it is tried on
    (src/utils/scheduleGenerator.js, getPreferredHours, getActivityFrequency,
    selectDaysForActivity). */
module Preferences {
  import opened Seqs
  import opened Clock
  import opened Week
  import opened JsObject

  /** A time-of-day bucket: the label a preference string is searched for, and its hours. */
  datatype Bucket = Bucket(name: string, hours: seq<int>)

  /** The fixed bucket table, in the order the source tests it. */
  const Buckets: seq<Bucket> := [
    Bucket("Morning (6-9)", [6, 7, 8]),
    Bucket("Late Morning (9-12)", [9, 10, 11]),
    Bucket("Afternoon (12-17)", [12, 13, 14, 15, 16]),
    Bucket("Evening (17-20)", [17, 18, 19]),
    Bucket("Night (20-23)", [20, 21, 22])
  ]

  /** `p` occurs in `s` starting at position 0. */
  predicate StartsWith(s: string, p: string)
  {
    |p| <= |s| && s[..|p|] == p
  }

  /** `s.includes(p)`. */
  predicate Contains(s: string, p: string)
    decreases |s|
  {
    StartsWith(s, p) || (|s| > 0 && Contains(s[1..], p))
  }

  /** A preference string mentioning a bucket's label selects it. */
  predicate Selects(slot: string, b: Bucket)
  {
    Contains(slot, b.name)
  }

  /** Some preference string selects the bucket. */
  predicate AnySelects(slots: seq<string>, b: Bucket)
  {
    slots != [] && (Selects(slots[0], b) || AnySelects(slots[1..], b))
  }

  /** The table position of the one bucket holding hour `h` (6 .. 22). */
  function BucketIndex(h: int): (j: nat)
    ensures j < |Buckets|
    ensures 6 <= h <= 22 ==> h in Buckets[j].hours
  {
    if h < 9 then 0 else if h < 12 then 1 else if h < 17 then 2 else if h < 20 then 3 else 4
  }

  /** The hours one preference string pushes: those of every bucket whose label it
      contains, checked in table order. */
  function SlotHours(slot: string): (r: seq<int>)
    ensures forall h :: h in r <==> 6 <= h <= 22 && Selects(slot, Buckets[BucketIndex(h)])
  {
    (if Selects(slot, Buckets[0]) then Buckets[0].hours else [])
    + (if Selects(slot, Buckets[1]) then Buckets[1].hours else [])
    + (if Selects(slot, Buckets[2]) then Buckets[2].hours else [])
    + (if Selects(slot, Buckets[3]) then Buckets[3].hours else [])
    + (if Selects(slot, Buckets[4]) then Buckets[4].hours else [])
  }

  /** Hour `h` belongs to a bucket that some preference string selects. */
  predicate HourSelected(slots: seq<string>, h: int)
  {
    6 <= h <= 22 && AnySelects(slots, Buckets[BucketIndex(h)])
  }

  /** Every hour pushed while scanning the preference strings, in push order. */
  function RawHours(slots: seq<string>): (r: seq<int>)
    ensures forall h :: h in r <==> HourSelected(slots, h)
  {
    if slots == [] then [] else SlotHours(slots[0]) + RawHours(slots[1..])
  }

  function Identity(h: int): int { h }

  predicate StrictlyAscending(s: seq<int>)
  {
    forall i, j :: 0 <= i < j < |s| ==> s[i] < s[j]
  }

  /** `getPreferredHours`: the hours of the selected buckets, each once, ascending. */
  function PreferredHours(slots: seq<string>): (r: seq<int>)
    ensures StrictlyAscending(r)
    ensures forall h :: h in r <==> HourSelected(slots, h)
  {
    var d := Dedup(RawHours(slots));
    var r := SortBy(d, Identity);
    SortDistinct(d, Identity);
    SortedDistinctAscending(r);
    SameElements(d, r);
    r
  }

  lemma SortedDistinctAscending(s: seq<int>)
    requires SortedBy(s, Identity) && Distinct(s)
    ensures StrictlyAscending(s)
  {
    forall i, j | 0 <= i < j < |s| ensures s[i] < s[j] {
      assert Identity(s[i]) <= Identity(s[j]);
    }
  }

  lemma SameElements(a: seq<int>, b: seq<int>)
    requires multiset(a) == multiset(b)
    ensures forall h :: h in b <==> h in a
  {
    forall h ensures h in b <==> h in a {
      assert h in b <==> h in multiset(b);
      assert h in a <==> h in multiset(a);
    }
  }

  /** Every preferred hour is a whole hour between 06:00 and 22:00. */
  lemma PreferredHoursInDay(slots: seq<string>)
    ensures forall i :: 0 <= i < |PreferredHours(slots)| ==> 6 <= PreferredHours(slots)[i] <= 22
  {
    var r := PreferredHours(slots);
    forall i | 0 <= i < |r| ensures 6 <= r[i] <= 22 {
      assert r[i] in r;
    }
  }

  /** With no preference string naming a bucket there is nothing to try. */
  lemma NoSelectionNoHours(slots: seq<string>)
    requires forall j :: 0 <= j < |Buckets| ==> !AnySelects(slots, Buckets[j])
    ensures PreferredHours(slots) == []
  {
    NoSelectionNoRawHours(slots);
  }

  lemma {:induction false} NoSelectionNoRawHours(slots: seq<string>)
    requires forall j :: 0 <= j < |Buckets| ==> !AnySelects(slots, Buckets[j])
    ensures RawHours(slots) == []
  {
    if slots != [] {
      assert forall j :: 0 <= j < |Buckets| ==> !Selects(slots[0], Buckets[j]);
      NoSelectionNoRawHours(slots[1..]);
    }
  }

  /** Frequency labels the activity form offers, with their weekly targets. */
  const FrequencyTable: seq<(string, int)> := [
    ("Daily", 7), ("5-6x/week", 5), ("3-5x/week", 4), ("1-2x/week", 2), ("Weekends", 2)
  ]

  const FrequencyLabels: set<string> := {"Daily", "5-6x/week", "3-5x/week", "1-2x/week", "Weekends"}

  /** `getActivityFrequency`, `map[freq] || 3`: the target of a known label, and 3 for
      any other string. The exception is a name every object inherits: its lookup gives
      a function instead of a number, and `|| 3` keeps that (none here). */
  function ActivityFrequency(freq: string): (r: Option<int>)
    ensures r.None? <==> freq in InheritedNames
    ensures r.Some? ==> 1 <= r.value <= 7
    ensures freq in FrequencyLabels ==> r.Some? && (freq, r.value) in FrequencyTable
    ensures r == Some(3) <==> freq !in FrequencyLabels && freq !in InheritedNames
  {
    if freq == "Daily" then Some(7)
    else if freq == "5-6x/week" then Some(5)
    else if freq == "3-5x/week" then Some(4)
    else if freq == "1-2x/week" then Some(2)
    else if freq == "Weekends" then Some(2)
    else if freq in InheritedNames then None
    else Some(3)
  }

  function StrideIndex(i: int, step: int): int
  {
    i * step
  }

  /** The loop of `selectDaysForActivity`: day `i * step` for `i = k, k + 1, ...`
      while `i < n` and the index is inside the week. */
  function StrideDays(k: nat, n: int, step: nat): seq<Day>
    decreases n - k
  {
    if k < n && k * step < 7 then [AllDays[k * step]] + StrideDays(k + 1, n, step) else []
  }

  /** The `m`-th day the loop picks is the one at index `(k + m) * step`. */
  lemma {:induction false} StrideDaysAt(k: nat, n: int, step: nat, m: nat)
    requires m < |StrideDays(k, n, step)|
    ensures 0 <= StrideIndex(k + m, step) < 7
    ensures StrideDays(k, n, step)[m] == AllDays[StrideIndex(k + m, step)]
    decreases n - k
  {
    if m > 0 {
      StrideDaysAt(k + 1, n, step, m - 1);
      assert k + 1 + (m - 1) == k + m;
    }
  }

  /** `selectDaysForActivity`: Saturday and Sunday for the weekend label, otherwise
      `n` days spread with stride `floor(7 / n)` from Monday. */
  function SelectDays(freq: string, n: int): (r: seq<Day>)
    requires n >= 1
    ensures freq == "Weekends" ==> r == [Saturday, Sunday]
    ensures freq != "Weekends" && n <= 7 ==>
      |r| == n && Distinct(r) && forall i :: 0 <= i < n ==> r[i] == AllDays[StrideIndex(i, 7 / n)]
  {
    if freq == "Weekends" then [Saturday, Sunday]
    else
      var r := StrideDays(0, n, 7 / n);
      assert n <= 7 ==> |r| == n && Distinct(r) && forall i :: 0 <= i < n ==> r[i] == AllDays[StrideIndex(i, 7 / n)] by {
        if n <= 7 {
          StrideLength(0, n, 7 / n);
          forall i | 0 <= i < n ensures r[i] == AllDays[StrideIndex(i, 7 / n)] {
            StrideDaysAt(0, n, 7 / n, i);
          }
          StrideDistinct(r, n, 7 / n);
        }
      }
      r
  }

  /** For `n` up to 7 the index `i * floor(7 / n)` never leaves the week before `n`
      days are chosen. */
  lemma {:induction false} StrideLength(k: nat, n: int, step: nat)
    requires 1 <= n <= 7 && step == 7 / n && k <= n
    ensures |StrideDays(k, n, step)| == n - k
    decreases n - k
  {
    if k < n {
      assert k * step < 7 by {
        assert n * step <= 7;
        assert k * step <= (n - 1) * step;
        assert (n - 1) * step == n * step - step;
        assert step >= 1;
      }
      StrideLength(k + 1, n, step);
    }
  }

  lemma StrideDistinct(r: seq<Day>, n: int, step: nat)
    requires 1 <= n <= 7 && step == 7 / n && r == StrideDays(0, n, step)
    ensures Distinct(r)
  {
    AllDaysDistinct();
    forall i, j | 0 <= i < j < |r| ensures r[i] != r[j] {
      StrideDaysAt(0, n, step, i);
      StrideDaysAt(0, n, step, j);
      StrideIncreasing(i, j, step);
    }
  }

  lemma StrideIncreasing(i: int, j: int, step: int)
    requires i < j && step >= 1
    ensures StrideIndex(i, step) < StrideIndex(j, step)
  {
    assert j * step == i * step + (j - i) * step;
    MulAtLeast(j - i, step);
  }
}

=== FILE: search.dfy ===
/** First-fit placement of study sessions and activities against a week that the
    searches only read (src/utils/scheduleGenerator.js, generateStudySessions,
    findBestStudySlot, scheduleActivities, findBestActivitySlot). */
module SlotSearch {
  import opened Seqs
  import opened Clock
  import opened Week
  import opened Inputs
  import opened Preferences

  /** A candidate interval on a day. */
  datatype Slot = Slot(day: Day, start: Minute, end: Minute)

  predicate HoursInDay(hours: seq<int>)
  {
    forall i :: 0 <= i < |hours| ==> 0 <= hours[i] < 24
  }

  /** The candidate for an hour: "HH:00" to that time plus the duration. */
  function Candidate(day: Day, hour: int, duration: nat): (s: Slot)
    requires 0 <= hour < 24
    ensures s.day == day && s.start % 60 == 0 && s.start / 60 == hour
    ensures s.end == AddMinutes(s.start, duration)
  {
    DivModUnique(hour * 60, 60, hour, 0);
    Slot(day, hour * 60, AddMinutes(hour * 60, duration))
  }

  predicate Free(s: Slot, week: Week)
  {
    IsSlotAvailable(s.day, s.start, s.end, week)
  }

  /** Position of the first free candidate, `|cands|` when there is none. */
  function FirstFree(cands: seq<Slot>, week: Week): (i: nat)
    ensures i <= |cands|
    ensures i < |cands| ==> Free(cands[i], week)
    ensures forall j :: 0 <= j < i ==> !Free(cands[j], week)
  {
    if cands == [] then 0
    else if Free(cands[0], week) then 0
    else 1 + FirstFree(cands[1..], week)
  }

  /** The first free candidate, if any: the reference meaning of every search below. */
  function FirstOf(cands: seq<Slot>, week: Week): Option<Slot>
  {
    var i := FirstFree(cands, week);
    if i < |cands| then Some(cands[i]) else None
  }

  lemma {:induction false} FirstOfConcat(a: seq<Slot>, b: seq<Slot>, week: Week)
    ensures FirstOf(a + b, week) == if FirstOf(a, week).Some? then FirstOf(a, week) else FirstOf(b, week)
  {
    if a != [] {
      assert (a + b)[0] == a[0];
      if !Free(a[0], week) {
        assert (a + b)[1..] == a[1..] + b;
        FirstOfConcat(a[1..], b, week);
      }
    } else {
      assert a + b == b;
    }
  }

  /** The candidates of `hours` on one day, in order. */
  function HourCandidates(day: Day, hours: seq<int>, duration: nat): (r: seq<Slot>)
    requires HoursInDay(hours)
    ensures |r| == |hours|
    ensures forall i :: 0 <= i < |r| ==> r[i] == Candidate(day, hours[i], duration)
  {
    if hours == [] then [] else [Candidate(day, hours[0], duration)] + HourCandidates(day, hours[1..], duration)
  }

  /** Day-major, hour-minor order of every (day, hour) candidate. */
  function DayHourCandidates(days: seq<Day>, hours: seq<int>, duration: nat): seq<Slot>
    requires HoursInDay(hours)
  {
    if days == [] then [] else HourCandidates(days[0], hours, duration) + DayHourCandidates(days[1..], hours, duration)
  }

  /** The inner loop over hours: returns at the first free candidate. */
  function SearchHours(day: Day, hours: seq<int>, duration: nat, week: Week): (r: Option<Slot>)
    requires HoursInDay(hours)
    ensures r == FirstOf(HourCandidates(day, hours, duration), week)
  {
    if hours == [] then None
    else
      var c := Candidate(day, hours[0], duration);
      var cs := HourCandidates(day, hours, duration);
      assert cs[1..] == HourCandidates(day, hours[1..], duration);
      if IsSlotAvailable(day, c.start, c.end, week) then Some(c)
      else SearchHours(day, hours[1..], duration, week)
  }

  /** The outer loop over days around the inner loop over hours. */
  function SearchDays(days: seq<Day>, hours: seq<int>, duration: nat, week: Week): (r: Option<Slot>)
    requires HoursInDay(hours)
    ensures r == FirstOf(DayHourCandidates(days, hours, duration), week)
  {
    if days == [] then None
    else
      FirstOfConcat(HourCandidates(days[0], hours, duration), DayHourCandidates(days[1..], hours, duration), week);
      match SearchHours(days[0], hours, duration, week)
      case Some(s) => Some(s)
      case None => SearchDays(days[1..], hours, duration, week)
  }


  /** Every day-major candidate is an on-the-hour candidate of one of the days, at one of
      the hours. */
  lemma {:induction false} DayHourCandidateShape(days: seq<Day>, hours: seq<int>, duration: nat, i: nat)
    requires HoursInDay(hours) && i < |DayHourCandidates(days, hours, duration)|
    ensures var c := DayHourCandidates(days, hours, duration)[i];
      c.day in days && c.start % 60 == 0 && c.start / 60 in hours && c.end == AddMinutes(c.start, duration)
  {
    var first := HourCandidates(days[0], hours, duration);
    var all := DayHourCandidates(days, hours, duration);
    if i < |first| {
      assert all[i] == first[i];
      assert all[i] == Candidate(days[0], hours[i], duration);
    } else {
      assert all[i] == DayHourCandidates(days[1..], hours, duration)[i - |first|];
      DayHourCandidateShape(days[1..], hours, duration, i - |first|);
    }
  }
}

=== FILE: seqs.dfy ===
/** Generic helpers over sequences: the optional value, filtering and counting,
    first-occurrence de-duplication (`[...new Set(xs)]`) and the stable sort that
    `Array.prototype.sort` with a key comparator performs. */
module Seqs {

  datatype Option<T> = None | Some(value: T)

  /** No element occurs twice. */
  predicate Distinct<T(==)>(s: seq<T>)
  {
    forall i, j :: 0 <= i < j < |s| ==> s[i] != s[j]
  }

  /** Number of elements of `s` satisfying `p` (`s.filter(p).length`). */
  function Count<T>(s: seq<T>, p: T -> bool): nat
  {
    if s == [] then 0 else (if p(s[0]) then 1 else 0) + Count(s[1..], p)
  }

  /** The elements of `s` satisfying `p`, in their original order. */
  function Filter<T(!new)>(s: seq<T>, p: T -> bool): (r: seq<T>)
    ensures |r| == Count(s, p)
    ensures forall x :: x in r <==> x in s && p(x)
  {
    if s == [] then [] else (if p(s[0]) then [s[0]] else []) + Filter(s[1..], p)
  }

  lemma {:induction false} FilterConcat<T(!new)>(a: seq<T>, b: seq<T>, p: T -> bool)
    ensures Filter(a + b, p) == Filter(a, p) + Filter(b, p)
    ensures Count(a + b, p) == Count(a, p) + Count(b, p)
  {
    if a == [] {
      assert a + b == b;
    } else {
      assert (a + b)[1..] == a[1..] + b;
      FilterConcat(a[1..], b, p);
    }
  }

  /** Filtering keeps everything when every element qualifies. */
  lemma {:induction false} FilterAll<T(!new)>(s: seq<T>, p: T -> bool)
    requires forall x :: x in s ==> p(x)
    ensures Filter(s, p) == s
  {
    if s != [] {
      assert forall x :: x in s[1..] ==> x in s;
      FilterAll(s[1..], p);
    }
  }

  /** Nothing is counted when no element qualifies. */
  lemma {:induction false} CountNone<T(!new)>(s: seq<T>, p: T -> bool)
    requires forall x :: x in s ==> !p(x)
    ensures Count(s, p) == 0
  {
    if s != [] {
      assert forall x :: x in s[1..] ==> x in s;
      CountNone(s[1..], p);
    }
  }

  /** `[...new Set(s)]`: each value once, at the position of its first occurrence. */
  function Dedup<T(==,!new)>(s: seq<T>): (r: seq<T>)
    ensures Distinct(r)
    ensures forall x :: x in r <==> x in s
    ensures |r| <= |s|
  {
    if s == [] then []
    else
      var d := Dedup(s[..|s| - 1]);
      assert forall x :: x in s[..|s| - 1] ==> x in s;
      assert forall x :: x in s ==> x in s[..|s| - 1] || x == s[|s| - 1];
      if s[|s| - 1] in d then d else d + [s[|s| - 1]]
  }

  /** Non-decreasing with respect to `key`. */
  predicate SortedBy<T>(s: seq<T>, key: T -> int)
  {
    forall i, j :: 0 <= i < j < |s| ==> key(s[i]) <= key(s[j])
  }

  /** Inserts `x` in front of the first element whose key is not smaller. */
  function Insert<T(==,!new)>(x: T, s: seq<T>, key: T -> int): (r: seq<T>)
    requires SortedBy(s, key)
    ensures SortedBy(r, key)
    ensures forall y :: y in r <==> y in s || y == x
    ensures multiset(r) == multiset(s) + multiset{x}
    ensures |r| == |s| + 1
  {
    if s == [] || key(x) <= key(s[0]) then
      SortedCons(x, s, key);
      [x] + s
    else
      SortedTail(s, key);
      var t := Insert(x, s[1..], key);
      assert s == [s[0]] + s[1..];
      SortedCons(s[0], t, key);
      [s[0]] + t
  }

  /** The tail of a sorted sequence is sorted and no element of it is below the head. */
  lemma SortedTail<T>(s: seq<T>, key: T -> int)
    requires SortedBy(s, key) && s != []
    ensures SortedBy(s[1..], key)
    ensures forall y :: y in s[1..] ==> key(s[0]) <= key(y)
  {
    forall y | y in s[1..] ensures key(s[0]) <= key(y) {
      var k :| 0 <= k < |s[1..]| && s[1..][k] == y;
      assert s[k + 1] == y;
    }
  }

  /** A head no larger than anything in a sorted tail keeps it sorted. */
  lemma SortedCons<T>(a: T, t: seq<T>, key: T -> int)
    requires SortedBy(t, key)
    requires forall y :: y in t ==> key(a) <= key(y)
    ensures SortedBy([a] + t, key)
  {
    var r := [a] + t;
    forall i, j | 0 <= i < j < |r| ensures key(r[i]) <= key(r[j]) {
      if i == 0 {
        assert r[j] == t[j - 1];
        assert r[j] in t;
      } else {
        assert r[i] == t[i - 1] && r[j] == t[j - 1];
      }
    }
  }

  /** Stable sort by `key`: insertion sort taking the elements front to back. */
  function SortBy<T(==,!new)>(s: seq<T>, key: T -> int): (r: seq<T>)
    ensures SortedBy(r, key)
    ensures multiset(r) == multiset(s)
    ensures |r| == |s|
  {
    if s == [] then []
    else
      assert s == [s[0]] + s[1..];
      Insert(s[0], SortBy(s[1..], key), key)
  }

  /** The elements of `s` whose key is `k`, in order. */
  function WithKey<T>(s: seq<T>, key: T -> int, k: int): seq<T>
  {
    if s == [] then [] else (if key(s[0]) == k then [s[0]] else []) + WithKey(s[1..], key, k)
  }

  lemma {:induction false} InsertWithKey<T(!new)>(x: T, s: seq<T>, key: T -> int, k: int)
    requires SortedBy(s, key)
    ensures WithKey(Insert(x, s, key), key, k) == WithKey([x] + s, key, k)
  {
    if s == [] || key(x) <= key(s[0]) {
    } else {
      assert key(s[0]) < key(x);
      InsertWithKey(x, s[1..], key, k);
      var t := Insert(x, s[1..], key);
      assert ([s[0]] + t)[1..] == t;
      assert ([x] + s)[1..] == s;
      assert ([x] + s[1..])[1..] == s[1..];
      if key(x) == k {
        assert WithKey([x] + s, key, k) == [x] + WithKey(s, key, k);
        assert WithKey(s, key, k) == WithKey(s[1..], key, k);
      }
    }
  }

  /** Stability: the elements sharing any one key keep their relative order. */
  lemma {:induction false} SortStable<T(!new)>(s: seq<T>, key: T -> int, k: int)
    ensures WithKey(SortBy(s, key), key, k) == WithKey(s, key, k)
  {
    if s != [] {
      SortStable(s[1..], key, k);
      InsertWithKey(s[0], SortBy(s[1..], key), key, k);
      assert ([s[0]] + SortBy(s[1..], key))[1..] == SortBy(s[1..], key);
      assert s[1..] == ([s[0]] + s[1..])[1..];
    }
  }

  lemma {:induction false} InsertCount<T(!new)>(x: T, s: seq<T>, key: T -> int, p: T -> bool)
    requires SortedBy(s, key)
    ensures Count(Insert(x, s, key), p) == Count(s, p) + (if p(x) then 1 else 0)
  {
    if s == [] || key(x) <= key(s[0]) {
      assert ([x] + s)[1..] == s;
    } else {
      InsertCount(x, s[1..], key, p);
      assert ([s[0]] + Insert(x, s[1..], key))[1..] == Insert(x, s[1..], key);
    }
  }

  /** Sorting changes no count. */
  lemma {:induction false} SortCount<T(!new)>(s: seq<T>, key: T -> int, p: T -> bool)
    ensures Count(SortBy(s, key), p) == Count(s, p)
  {
    if s != [] {
      SortCount(s[1..], key, p);
      InsertCount(s[0], SortBy(s[1..], key), key, p);
    }
  }

  lemma {:induction false} InsertDistinct<T(!new)>(x: T, s: seq<T>, key: T -> int)
    requires SortedBy(s, key) && Distinct(s) && x !in s
    ensures Distinct(Insert(x, s, key))
  {
    if s == [] || key(x) <= key(s[0]) {
    } else {
      var t := Insert(x, s[1..], key);
      assert forall y :: y in s[1..] ==> y in s;
      assert Distinct(s[1..]);
      InsertDistinct(x, s[1..], key);
      assert s[0] !in s[1..];
      assert s[0] !in multiset(t);
    }
  }

  /** Sorting a sequence without repetitions yields one without repetitions. */
  lemma {:induction false} SortDistinct<T(!new)>(s: seq<T>, key: T -> int)
    requires Distinct(s)
    ensures Distinct(SortBy(s, key))
  {
    if s != [] {
      assert Distinct(s[1..]);
      SortDistinct(s[1..], key);
      assert s[0] !in s[1..];
      assert s[0] !in multiset(SortBy(s[1..], key));
      InsertDistinct(s[0], SortBy(s[1..], key), key);
    }
  }

  /** Sorting keeps exactly the same elements. */
  lemma SortMembers<T(!new)>(s: seq<T>, key: T -> int)
    ensures forall x :: x in SortBy(s, key) <==> x in s
  {
    var r := SortBy(s, key);
    assert forall x :: x in r <==> x in multiset(r);
    assert forall x :: x in s <==> x in multiset(s);
  }

  /** `x` written out `k` times. */
  function Repeat<T>(x: seq<T>, k: nat): seq<T>
  {
    if k == 0 then [] else x + Repeat(x, k - 1)
  }

  /** One element repeated `k` times is `k` copies of it. */
  lemma {:induction false} RepeatOne<T>(x: T, k: nat)
    ensures |Repeat([x], k)| == k
    ensures forall i :: 0 <= i < k ==> Repeat([x], k)[i] == x
  {
    if k > 0 {
      RepeatOne(x, k - 1);
      var r := Repeat([x], k);
      forall i | 0 <= i < k ensures r[i] == x {
        if i > 0 {
          assert r[i] == Repeat([x], k - 1)[i - 1];
        }
      }
    }
  }

  lemma {:induction false} RepeatEmpty<T>(k: nat)
    ensures Repeat<T>([], k) == []
  {
    if k > 0 {
      RepeatEmpty<T>(k - 1);
    }
  }
}

=== FILE: stats.dfy ===
/** The summary reported with a generated week: how many classes, study sessions and
    activities it holds, and its free time in whole hours
    (src/utils/scheduleGenerator.js, calculateStats). */
module Stats {
  import opened Seqs
  import opened Clock
  import opened Week

  datatype Stats = Stats(totalClasses: nat, totalStudySessions: nat, totalActivities: nat, totalFreeTime: nat)

  /** The number of blocks satisfying `p` over the seven days. */
  function WeekCount(w: Week, p: Block -> bool): nat
  {
    Count(w[Monday], p) + Count(w[Tuesday], p) + Count(w[Wednesday], p) + Count(w[Thursday], p)
    + Count(w[Friday], p) + Count(w[Saturday], p) + Count(w[Sunday], p)
  }

  /** The blocks the free-time measure looks at: not sleep, starting at 06:00 or later. */
  predicate Awake(b: Block)
  {
    !IsSleep(b) && b.start >= 6 * 60
  }

  /** The gap between one block's end and the next block's start, counted only when it
      is longer than half an hour. */
  function CountedGap(a: Block, b: Block): nat
  {
    var gap := b.start - a.end;
    if gap > 30 then gap else 0
  }

  /** The counted gaps between neighbours of `s`, front to back. */
  function GapSum(s: seq<Block>): nat
  {
    if |s| < 2 then 0 else CountedGap(s[0], s[1]) + GapSum(s[1..])
  }

  /** The free minutes of one day: the counted gaps between its awake blocks in
      start order, so either none or more than half an hour. */
  function DayFreeMinutes(day: seq<Block>): (r: nat)
    ensures r == 0 || r > 30
  {
    GapSumOverThirty(SortBy(Filter(day, Awake), StartOf));
    GapSum(SortBy(Filter(day, Awake), StartOf))
  }

  /** Sleep blocks and blocks starting before 06:00 never change a day's free time. */
  lemma AsleepBlocksIgnored(day: seq<Block>, extra: seq<Block>)
    requires forall b :: b in extra ==> !Awake(b)
    ensures DayFreeMinutes(day + extra) == DayFreeMinutes(day)
    ensures DayFreeMinutes(extra + day) == DayFreeMinutes(day)
  {
    FilterConcat(day, extra, Awake);
    FilterConcat(extra, day, Awake);
    CountNone(extra, Awake);
    assert Filter(extra, Awake) == [];
    var f := Filter(day, Awake);
    assert Filter(day + extra, Awake) == f + [] == f;
    assert Filter(extra + day, Awake) == [] + f == f;
    assert DayFreeMinutes(day + extra) == GapSum(SortBy(f, StartOf));
    assert DayFreeMinutes(extra + day) == GapSum(SortBy(f, StartOf));
  }

  function WeekFreeMinutes(w: Week): nat
  {
    DayFreeMinutes(w[Monday]) + DayFreeMinutes(w[Tuesday]) + DayFreeMinutes(w[Wednesday])
    + DayFreeMinutes(w[Thursday]) + DayFreeMinutes(w[Friday]) + DayFreeMinutes(w[Saturday])
    + DayFreeMinutes(w[Sunday])
  }

  /** `Math.round(minutes / 60)` for a non-negative number of minutes: the nearest whole
      hour, halves rounded up. */
  function RoundHours(minutes: nat): (r: nat)
    ensures 60 * r - 30 <= minutes < 60 * r + 30
  {
    var q := (minutes + 30) / 60;
    assert minutes + 30 == 60 * q + (minutes + 30) % 60;
    q
  }

  /** `calculateStats`. */
  function CalculateStats(w: Week): (r: Stats)
    ensures r.totalClasses == WeekCount(w, IsClass)
    ensures r.totalStudySessions == WeekCount(w, IsStudy)
    ensures r.totalActivities == WeekCount(w, IsActivity)
    ensures 60 * r.totalFreeTime - 30 <= WeekFreeMinutes(w) < 60 * r.totalFreeTime + 30
  {
    Stats(WeekCount(w, IsClass), WeekCount(w, IsStudy), WeekCount(w, IsActivity), RoundHours(WeekFreeMinutes(w)))
  }

  /** A day with at most one awake block has no free time. */
  lemma {:induction false} NoGapWithoutNeighbours(day: seq<Block>)
    requires Count(day, Awake) <= 1
    ensures DayFreeMinutes(day) == 0
  {
    var s := SortBy(Filter(day, Awake), StartOf);
    assert |s| <= 1;
  }

  /** Every counted gap is longer than half an hour, so a day's free time is either
      nothing or more than thirty minutes. */
  lemma {:induction false} GapSumOverThirty(s: seq<Block>)
    ensures GapSum(s) == 0 || GapSum(s) > 30
  {
    if |s| >= 2 {
      GapSumOverThirty(s[1..]);
    }
  }

  /** The placed blocks whose block satisfies `p`. */
  function PlacedCount(ps: seq<Placed>, p: Block -> bool): nat
  {
    if ps == [] then 0 else (if p(ps[0].block) then 1 else 0) + PlacedCount(ps[1..], p)
  }

  /** Sharing placed blocks out over the days keeps every one of them, once. */
  lemma {:induction false} BlocksOnCount(ps: seq<Placed>, p: Block -> bool)
    ensures Count(BlocksOn(ps, Monday), p) + Count(BlocksOn(ps, Tuesday), p) + Count(BlocksOn(ps, Wednesday), p)
          + Count(BlocksOn(ps, Thursday), p) + Count(BlocksOn(ps, Friday), p) + Count(BlocksOn(ps, Saturday), p)
          + Count(BlocksOn(ps, Sunday), p) == PlacedCount(ps, p)
  {
    if ps != [] {
      BlocksOnCount(ps[1..], p);
      BlocksOnStep(ps, Monday, p);
      BlocksOnStep(ps, Tuesday, p);
      BlocksOnStep(ps, Wednesday, p);
      BlocksOnStep(ps, Thursday, p);
      BlocksOnStep(ps, Friday, p);
      BlocksOnStep(ps, Saturday, p);
      BlocksOnStep(ps, Sunday, p);
    }
  }

  lemma BlocksOnStep(ps: seq<Placed>, d: Day, p: Block -> bool)
    requires ps != []
    ensures Count(BlocksOn(ps, d), p)
         == (if ps[0].day == d && p(ps[0].block) then 1 else 0) + Count(BlocksOn(ps[1..], d), p)
  {
    var here := if ps[0].day == d then [ps[0].block] else [];
    FilterConcat(here, BlocksOn(ps[1..], d), p);
  }

  /** Pushing placed blocks adds exactly their count to the week's. */
  lemma PushWeekCount(w: Week, ps: seq<Placed>, p: Block -> bool)
    ensures WeekCount(Push(w, ps), p) == WeekCount(w, p) + PlacedCount(ps, p)
  {
    forall d: Day ensures Count(Push(w, ps)[d], p) == Count(w[d], p) + Count(BlocksOn(ps, d), p) {
      FilterConcat(w[d], BlocksOn(ps, d), p);
    }
    BlocksOnCount(ps, p);
  }

  lemma {:induction false} PlacedCountAll(ps: seq<Placed>, p: Block -> bool)
    requires forall x :: x in ps ==> p(x.block)
    ensures PlacedCount(ps, p) == |ps|
  {
    if ps != [] {
      assert forall x :: x in ps[1..] ==> x in ps;
      PlacedCountAll(ps[1..], p);
    }
  }

  lemma {:induction false} PlacedCountNone(ps: seq<Placed>, p: Block -> bool)
    requires forall x :: x in ps ==> !p(x.block)
    ensures PlacedCount(ps, p) == 0
  {
    if ps != [] {
      assert forall x :: x in ps[1..] ==> x in ps;
      PlacedCountNone(ps[1..], p);
    }
  }
}

=== FILE: study.dfy ===
/** Study sessions: how many each course needs and where they go
    (src/utils/scheduleGenerator.js, generateStudySessions and findBestStudySlot). */
module StudyPlan {
  import opened Seqs
  import opened Clock
  import opened Week
  import opened Inputs
  import opened Preferences
  import opened SlotSearch

  const StudyDays: seq<Day> := [Monday, Tuesday, Wednesday, Thursday, Friday]

  /** `sessionDuration || 90`. */
  function SessionLength(p: StudyPrefs): nat
  {
    if p.sessionDuration == 0 then 90 else p.sessionDuration
  }

  /** `hoursPerCoursePerWeek || 5`. */
  function WeeklyHours(p: StudyPrefs): nat
  {
    if p.hoursPerCourse == 0 then 5 else p.hoursPerCourse
  }

  /** `Math.ceil(hours * 60 / duration)`: the fewest sessions that cover the weekly
      hours of one course. */
  function SessionsNeeded(p: StudyPrefs): (r: nat)
    ensures (r - 1) * SessionLength(p) < WeeklyHours(p) * 60 <= r * SessionLength(p)
    ensures r >= 1
  {
    var need := WeeklyHours(p) * 60;
    var d := SessionLength(p);
    var q := (need + d - 1) / d;
    var rem := (need + d - 1) % d;
    assert need + d - 1 == q * d + rem;
    assert (q - 1) * d == q * d - d;
    assert q >= 1 by {
      assert need + d - 1 >= d;
    }
    q
  }

  function PreferredStudyHours(p: StudyPrefs): (r: seq<int>)
    ensures HoursInDay(r)
  {
    PreferredHoursInDay(p.preferredTimes);
    PreferredHours(p.preferredTimes)
  }

  /** `findBestStudySlot`: the first free candidate in day-major order, Monday to Friday
      outside and the preferred hours inside, or none when no candidate is free; the
      slot found is an on-the-hour interval of the session length. Only the title
      depends on the course, so the course is not an argument. */
  function FindBestStudySlot(p: StudyPrefs, week: Week): (r: Option<Slot>)
    ensures r.Some? ==> (Free(r.value, week) && r.value.day in StudyDays
                       && r.value.start % 60 == 0 && r.value.start / 60 in PreferredStudyHours(p)
                       && r.value.end == AddMinutes(r.value.start, SessionLength(p)))
  {
    StudySearchShape(p, week);
    SearchDays(StudyDays, PreferredStudyHours(p), SessionLength(p), week)
  }

  /** The study search is first-fit over days Monday to Friday outside and the preferred
      hours inside: none only when no candidate is free. */
  lemma StudySlotFirstFit(p: StudyPrefs, week: Week)
    ensures FindBestStudySlot(p, week) == FirstOf(DayHourCandidates(StudyDays, PreferredStudyHours(p), SessionLength(p)), week)
  {
  }

  lemma StudySearchShape(p: StudyPrefs, week: Week)
    ensures var r := SearchDays(StudyDays, PreferredStudyHours(p), SessionLength(p), week);
      r.Some? ==> (Free(r.value, week) && r.value.day in StudyDays
                   && r.value.start % 60 == 0 && r.value.start / 60 in PreferredStudyHours(p)
                   && r.value.end == AddMinutes(r.value.start, SessionLength(p)))
  {
    var cands := DayHourCandidates(StudyDays, PreferredStudyHours(p), SessionLength(p));
    if FirstFree(cands, week) < |cands| {
      DayHourCandidateShape(StudyDays, PreferredStudyHours(p), SessionLength(p), FirstFree(cands, week));
    }
  }

  function StudyBlock(s: Slot, course: string): Placed
  {
    Placed(s.day, Block(s.start, s.end, StudyItem(course)))
  }

  /** One iteration of the per-course loop, given the answer of the search. */
  function StudyAttempt(course: string, found: Option<Slot>): seq<Placed>
  {
    if found.Some? then [StudyBlock(found.value, course)] else []
  }

  /** The sessions of every course in turn. Each of the `n` iterations per course calls
      the search with the same preferences and the same, never updated, week, so every
      iteration of every course receives the same answer `found`. */
  function CourseSessions(courses: seq<string>, n: nat, found: Option<Slot>): seq<Placed>
  {
    if courses == [] then [] else Repeat(StudyAttempt(courses[0], found), n) + CourseSessions(courses[1..], n, found)
  }

  function Subjects(classes: seq<ClassEntry>): (r: seq<string>)
    ensures |r| == |classes| && forall i :: 0 <= i < |r| ==> r[i] == classes[i].subject
  {
    if classes == [] then [] else [classes[0].subject] + Subjects(classes[1..])
  }

  /** The distinct course subjects, in order of first appearance. */
  function Courses(classes: seq<ClassEntry>): seq<string>
  {
    Dedup(Subjects(classes))
  }

  /** `generateStudySessions`: the sessions are only collected, never written into the
      week, so every session lands on the one slot `FindBestStudySlot` picks in the week
      it is given; each distinct course gets `SessionsNeeded` of them, or none at all
      when no slot is free. */
  function GenerateStudySessions(classes: seq<ClassEntry>, p: StudyPrefs, week: Week): (r: seq<Placed>)
    ensures FindBestStudySlot(p, week).None? ==> r == []
    ensures FindBestStudySlot(p, week).Some? ==> |r| == |Courses(classes)| * SessionsNeeded(p)
    ensures FindBestStudySlot(p, week).Some? ==>
      forall i :: 0 <= i < |r| ==> SameSlot(r[i], FindBestStudySlot(p, week).value)
    ensures forall i :: 0 <= i < |r| ==> IsStudy(r[i].block) && r[i].block.kind.course in Subjects(classes)
    ensures FindBestStudySlot(p, week).Some? ==>
      forall i :: 0 <= i < |r| ==> r[i] == StudyBlock(FindBestStudySlot(p, week).value, CourseOf(Courses(classes), SessionsNeeded(p), i))
  {
    var courses := Courses(classes);
    var found := FindBestStudySlot(p, week);
    CourseSessionsShape(courses, SessionsNeeded(p), found);
    StudySessionsOrder(classes, p, week);
    CourseSessions(courses, SessionsNeeded(p), found)
  }

  predicate SameSlot(x: Placed, s: Slot)
  {
    x.day == s.day && x.block.start == s.start && x.block.end == s.end
  }

  lemma {:induction false} CourseSessionsShape(courses: seq<string>, n: nat, found: Option<Slot>)
    ensures found.None? ==> CourseSessions(courses, n, found) == []
    ensures found.Some? ==> |CourseSessions(courses, n, found)| == |courses| * n
    ensures found.Some? ==> forall i :: 0 <= i < |CourseSessions(courses, n, found)| ==>
      SameSlot(CourseSessions(courses, n, found)[i], found.value)
    ensures forall i :: 0 <= i < |CourseSessions(courses, n, found)| ==>
      IsStudy(CourseSessions(courses, n, found)[i].block) && CourseSessions(courses, n, found)[i].block.kind.course in courses
  {
    if courses != [] {
      var head := Repeat(StudyAttempt(courses[0], found), n);
      var tail := CourseSessions(courses[1..], n, found);
      if found.Some? {
        RepeatOne(StudyBlock(found.value, courses[0]), n);
      } else {
        RepeatEmpty<Placed>(n);
      }
      CourseSessionsShape(courses[1..], n, found);
      var r := head + tail;
      forall i | 0 <= i < |r|
        ensures IsStudy(r[i].block) && r[i].block.kind.course in courses
        ensures found.Some? ==> SameSlot(r[i], found.value)
      {
        if i >= |head| {
          assert r[i] == tail[i - |head|];
        } else {
          assert r[i] == StudyBlock(found.value, courses[0]);
        }
      }
      if found.Some? {
        assert |r| == n + (|courses| - 1) * n;
      }
    }
  }

  /** The course of session `i` when each course gets `n` sessions in a row: the
      `i / n`-th. */
  function CourseOf(courses: seq<string>, n: nat, i: nat): string
  {
    if n > 0 && i / n < |courses| then courses[i / n] else ""
  }

  /** Course by course: the `n` sessions of the first course, then the `n` of the next,
      so session `i` belongs to course `i / n`. */
  lemma CourseSessionsOrder(courses: seq<string>, n: nat, found: Option<Slot>)
    requires n > 0
    ensures found.Some? ==> forall i :: 0 <= i < |CourseSessions(courses, n, found)| ==>
      i / n < |courses| && CourseSessions(courses, n, found)[i] == StudyBlock(found.value, CourseOf(courses, n, i))
  {
    if found.Some? {
      forall i | 0 <= i < |CourseSessions(courses, n, found)|
        ensures i / n < |courses| && CourseSessions(courses, n, found)[i] == StudyBlock(found.value, CourseOf(courses, n, i))
      {
        CourseSessionsAt(courses, n, found.value, i);
      }
    }
  }

  lemma {:induction false} CourseSessionsAt(courses: seq<string>, n: nat, s: Slot, i: nat)
    requires n > 0 && i < |CourseSessions(courses, n, Some(s))|
    ensures i / n < |courses| && CourseSessions(courses, n, Some(s))[i] == StudyBlock(s, courses[i / n])
  {
    var head := Repeat(StudyAttempt(courses[0], Some(s)), n);
    var tail := CourseSessions(courses[1..], n, Some(s));
    RepeatOne(StudyBlock(s, courses[0]), n);
    if i < n {
      assert CourseSessions(courses, n, Some(s))[i] == head[i];
      assert i / n == 0;
    } else {
      assert CourseSessions(courses, n, Some(s))[i] == tail[i - n];
      CourseSessionsAt(courses[1..], n, s, i - n);
      DivShift(i - n, n);
    }
  }

  lemma StudySessionsOrder(classes: seq<ClassEntry>, p: StudyPrefs, week: Week)
    ensures var r := CourseSessions(Courses(classes), SessionsNeeded(p), FindBestStudySlot(p, week));
      FindBestStudySlot(p, week).Some? ==>
      forall i :: 0 <= i < |r| ==> r[i] == StudyBlock(FindBestStudySlot(p, week).value, CourseOf(Courses(classes), SessionsNeeded(p), i))
  {
    CourseSessionsOrder(Courses(classes), SessionsNeeded(p), FindBestStudySlot(p, week));
  }

  lemma DivShift(j: nat, n: nat)
    requires n > 0
    ensures (j + n) / n == j / n + 1
  {
    DivModUnique(j + n, n, j / n + 1, j % n);
  }
}

=== FILE: week.dfy ===
/** The synthesised week: seven named days, each holding a list of time blocks, and
    the availability test that slot searches ask before placing anything
    (src/utils/scheduleGenerator.js, weekSchedule and isSlotAvailable). */
module Week {
  import opened Clock

  datatype Day = Monday | Tuesday | Wednesday | Thursday | Friday | Saturday | Sunday

  /** The key order of the week object. */
  const AllDays: seq<Day> := [Monday, Tuesday, Wednesday, Thursday, Friday, Saturday, Sunday]

  function DayIndex(d: Day): (i: nat)
    ensures i < 7 && AllDays[i] == d
  {
    match d
    case Monday => 0
    case Tuesday => 1
    case Wednesday => 2
    case Thursday => 3
    case Friday => 4
    case Saturday => 5
    case Sunday => 6
  }

  lemma AllDaysDistinct()
    ensures forall i, j :: 0 <= i < j < 7 ==> AllDays[i] != AllDays[j]
  {
    forall i, j | 0 <= i < j < 7 ensures AllDays[i] != AllDays[j] {
      assert DayIndex(AllDays[i]) == i by { DayIndexOfAllDays(i); }
      assert DayIndex(AllDays[j]) == j by { DayIndexOfAllDays(j); }
    }
  }

  lemma DayIndexOfAllDays(i: int)
    requires 0 <= i < 7
    ensures DayIndex(AllDays[i]) == i
  {
  }

  datatype Meal = Breakfast | Lunch | Dinner

  /** What a block is, with the fields the source records for each `type`.  Colours and
      the composed title strings are presentation only and are not kept. */
  datatype Kind =
    | ClassItem(subtype: string, subject: string, room: string, professor: string, frequency: string)
    | CommuteItem(toUniversity: bool)
    | MealItem(meal: Meal)
    | SleepItem
    | StudyItem(course: string)
    | ActivityItem(name: string, icon: string, priority: string)

  /** One placed block; `start` and `end` are the minute values of its "HH:MM" times. */
  datatype Block = Block(start: Minute, end: Minute, kind: Kind)

  predicate IsClass(b: Block) { b.kind.ClassItem? }
  predicate IsCommute(b: Block) { b.kind.CommuteItem? }
  predicate IsMeal(b: Block) { b.kind.MealItem? }
  predicate IsSleep(b: Block) { b.kind.SleepItem? }
  predicate IsStudy(b: Block) { b.kind.StudyItem? }
  predicate IsActivity(b: Block) { b.kind.ActivityItem? }

  function StartOf(b: Block): int { b.start }

  /** A block produced by a search, with the day it belongs to. */
  datatype Placed = Placed(day: Day, block: Block)

  /** A week has a block list for every day. */
  type Week = w: map<Day, seq<Block>> | forall d: Day :: d in w witness map d: Day | true :: []

  /** The week object the generator starts from: every day empty. */
  const EmptyWeek: Week := map d: Day | true :: []

  /** `[start, end)` and `[b.start, b.end)` overlap in the source's sense. */
  predicate Overlaps(start: int, end: int, b: Block)
  {
    start < b.end && end > b.start
  }

  /** `items.some(item => overlap)`. */
  function AnyOverlap(items: seq<Block>, start: int, end: int): (r: bool)
    ensures r <==> exists i :: 0 <= i < |items| && Overlaps(start, end, items[i])
  {
    if items == [] then false
    else Overlaps(start, end, items[0]) || AnyOverlap(items[1..], start, end)
  }

  /** `isSlotAvailable`: no block already on that day, whatever its kind, overlaps. */
  function IsSlotAvailable(day: Day, start: int, end: int, week: Week): (r: bool)
    ensures r <==> forall b :: b in week[day] ==> !Overlaps(start, end, b)
  {
    !AnyOverlap(week[day], start, end)
  }

  /** The test is not aware of midnight: a candidate whose end has wrapped round to
      00:00 is never blocked, whatever the day holds. */
  lemma WrappedCandidateNeverBlocked(day: Day, start: int, week: Week)
    ensures IsSlotAvailable(day, start, 0, week)
  {
  }

  /** The blocks of `ps` that belong to `d`, in order. */
  function BlocksOn(ps: seq<Placed>, d: Day): (r: seq<Block>)
    ensures forall b :: b in r <==> Placed(d, b) in ps
    ensures |r| <= |ps|
  {
    if ps == [] then []
    else
      assert forall p :: p in ps <==> p == ps[0] || p in ps[1..];
      (if ps[0].day == d then [ps[0].block] else []) + BlocksOn(ps[1..], d)
  }

  /** Pushing each placed block onto its day, in order. */
  function Push(w: Week, ps: seq<Placed>): (r: Week)
    ensures forall d :: r[d] == w[d] + BlocksOn(ps, d)
  {
    if ps == [] then
      assert forall d :: BlocksOn(ps, d) == [];
      w
    else
      var w' := w[ps[0].day := w[ps[0].day] + [ps[0].block]];
      PushFirst(w, ps, w');
      Push(w', ps[1..])
  }

  lemma PushFirst(w: Week, ps: seq<Placed>, w': Week)
    requires ps != [] && w' == w[ps[0].day := w[ps[0].day] + [ps[0].block]]
    ensures forall d :: w'[d] + BlocksOn(ps[1..], d) == w[d] + BlocksOn(ps, d)
  {
    forall d ensures w'[d] + BlocksOn(ps[1..], d) == w[d] + BlocksOn(ps, d) {
      var rest := BlocksOn(ps[1..], d);
      if d == ps[0].day {
        assert BlocksOn(ps, d) == [ps[0].block] + rest;
        assert (w[d] + [ps[0].block]) + rest == w[d] + ([ps[0].block] + rest);
      } else {
        assert BlocksOn(ps, d) == rest;
      }
    }
  }

  /** Each placed block lands on exactly one day, so the day lists share out `ps`. */
  lemma {:induction false} BlocksOnTotal(ps: seq<Placed>)
    ensures |BlocksOn(ps, Monday)| + |BlocksOn(ps, Tuesday)| + |BlocksOn(ps, Wednesday)|
          + |BlocksOn(ps, Thursday)| + |BlocksOn(ps, Friday)| + |BlocksOn(ps, Saturday)|
          + |BlocksOn(ps, Sunday)| == |ps|
  {
    if ps != [] {
      BlocksOnTotal(ps[1..]);
    }
  }
}
